=== FILE: README.md ===
# dotenv-flow, modelled in Dafny

This project models the core of dotenv-flow, a Node.js library that loads
variables from a cascade of `.env*` files into `process.env`:

- `composeFilename` turns a naming pattern such as `.env[.node_env][.local]`
  into a file name, for a given environment name and "local" flag.
- `listFiles` builds the "environment cascade". This is the existing files
  among `.env.defaults`, `.env`, `.env.local`, `.env.<node_env>` and
  `.env.<node_env>.local`, lowest priority first. `.env.local` is left out
  for the `test` environment.
- `parse` reads and merges files in order, later files overwriting earlier ones.
- `load` merges the parsed variables into the store without overwriting
  variables that are already set. `unload` deletes the variables whose stored
  value equals the parsed one.
- `config` picks the environment name, optionally purges a previously
  loaded `.env`, lists the cascade and loads it. It reports an error when no
  file matches.
- `cli_options` and `env_options` read the same options from the command line
  (`--switch value`, `--switch=value`) and from environment variables.

The model is functional:

- the filesystem is a map from paths to either the file's variables or a read error;
- the variable store is a `map<string, string>`;
- each operation returns its result together with the new store.

Files:

- `wrappers.dfy`: `Option` and `Result`.
- `files.dfy`: paths, the filesystem map and the variable store.
- `patterns.dfy`: naming patterns as segments (literal text, local groups,
  node_env groups) and `composeFilename` as two rewrite passes.
- `replacement.dfy`: the node_env pass as the code writes it, through a
  `String.prototype.replace` template with the environment name spliced in,
  and where that differs from inserting the name (see "Findings").
- `cascade.dfy`: `listFiles`, as five slots in a fixed order.
- `merge.dfy`: `parse`, `load` and `unload`.
- `config.dfy`: `config`, plus worked scenarios on a two-file directory.
- `cli_options.dfy`: the argv scanner, for any switch table and for the
  repository's own table.
- `env_options.dfy`: the environment projection, for any rename table and
  for the repository's own table.

Where the code and its tests or type declarations disagree, the model
follows the code:

- `env_options` does not map `DOTENV_FLOW_SILENT`, although the unit test at
  test/unit/env-options.spec.js:14,22 expects a `silent` option. The model
  proves that `silent` is never produced (`EnvOptions.NoSilentNoPattern`).
- The `files` option declared in lib/dotenv-flow.d.ts is not read by
  `config`, so it is not modelled.

Behaviour worth knowing:

- `unload` after `load` is not a full restore. A variable that was set
  before `load` with the same value as in the file is deleted too
  (`Merge.UnloadIsNotARestore`).
- An explicit `node_env` option wins even when it is empty. The store's
  `NODE_ENV` and then `default_node_env` are used only when the option is
  absent (lib/dotenv-flow.js:207).

## Model

| member | source | states |
|---|---|---|
| Patterns.Compose | lib/dotenv-flow.js:21-35 | The two global rewrite passes (local groups first, then node_env groups) give the same name as reading the pattern segment by segment. Literal text is kept; a local group becomes its inner text with `local` and nothing without it; a node_env group becomes prefix + name + suffix for a truthy name and nothing otherwise. |
| Patterns.ReplaceLocalEach | lib/dotenv-flow.js:24-27 | The local pass rewrites every local group, not just the first: each becomes its inner text with `local` and nothing without. Every other segment stays in place. |
| Patterns.ReplaceEnvEach | lib/dotenv-flow.js:29-32 | The node_env pass rewrites every node_env group: each becomes prefix + name + suffix for a truthy name and nothing otherwise. Every other segment stays in place. |
| Patterns.ComposeCons | lib/dotenv-flow.js:24-32 | What each kind of segment contributes in front of the rest of the name, one ensures per segment kind. |
| Patterns.ComposeAppend | lib/dotenv-flow.js:21-35 | Composing a concatenation of patterns gives the concatenation of the composed parts. |
| Patterns.ComposeBare | lib/dotenv-flow.js:21-35 | With no options, every local group and every node_env group is removed entirely; what remains is the literal text in order. |
| Patterns.ComposeWithoutGroups | lib/dotenv-flow.js:21-35 | A pattern with no group is returned as it is, whatever the options. |
| Patterns.ComposeRewritesEveryGroup | lib/dotenv-flow.js:9-32 | After both passes no group of either kind is left, because both regexes are global: every occurrence is rewritten. |
| Patterns.ComposeNoBrackets | lib/dotenv-flow.js:9-35 | For a well-formed pattern and a bracket-free environment name, the composed name contains no `[` or `]`. |
| Patterns.ComposeLocalNonEmpty | lib/dotenv-flow.js:73-75 | With `local`, a pattern with a local group composes to a name of at least five characters, so the local slot is never empty. |
| Patterns.ComposeEnvNonEmpty | lib/dotenv-flow.js:77-81 | With a truthy name, a pattern with a node_env group composes to a name at least as long as the environment name. |
| Patterns.ComposeNestedExample | lib/dotenv-flow.js:21-35 | `.env/[node_env/].env[.node_env][.local]` composes to `.env/development/.env.development.local` with `development` and local, and to `.env/.env` with no options (test/unit/dotenv-flow-api.spec.js:333-341). |
| Patterns.ComposeNested | lib/dotenv-flow.js:21-35 | The names of the nested-directory pattern for every choice of options. |
| Patterns.ComposeDefault | lib/dotenv-flow.js:21-35 | The default pattern composes to `.env`, then `.` + name when the name is truthy, then `.local` when asked. |
| Patterns.ComposeDefaultNames | lib/dotenv-flow.js:71-81 | The four names of the default pattern: `.env`, `.env.local`, `.env.<name>`, `.env.<name>.local`. |
| Patterns.DefaultPatternRenders | lib/dotenv-flow.js:7 | The default pattern's segments render to `.env[.node_env][.local]` and have both kinds of group. |
| Patterns.ShowEnvWithoutEnvGroup | lib/dotenv-flow.js:228-230 | The pattern shown in the "no files" error equals the pattern when it has no node_env group. |
| Patterns.ShowEnvDefault | lib/dotenv-flow.js:228-230 | For the default pattern the error shows `.env[.<name>][.local]`: the brackets are kept and the name replaces the word `node_env`. |
| Cascade.Candidate | lib/dotenv-flow.js:63-83 | When each slot has a candidate in the directory. Defaults: only for the default pattern text. Base: when the bare name is non-empty. Local: with a local group and a name other than `test`. node_env: with a truthy name and a node_env group. node_env-local: additionally needs a local group, even for `test`. Each rule is an if-and-only-if, so the names of the last three are never empty. |
| Cascade.SlotNames | lib/dotenv-flow.js:67-83 | The file name composed for each set slot. |
| Cascade.DefaultCandidates | lib/dotenv-flow.js:67-83 | For the default pattern the candidates are `.env.defaults`, `.env`, `.env.local` unless the name is `test`, and `.env.<name>` and `.env.<name>.local` for a truthy name. |
| Cascade.TestExcludesLocal | lib/dotenv-flow.js:73-83 | For `test` the local slot is never listed, whatever exists. The test-specific local slot is listed exactly when the pattern has both groups and its file exists. |
| Cascade.Collect | lib/dotenv-flow.js:92-103 | The reduce keeps one path per slot whose candidate exists, in the order of the slots given: the i-th path is the candidate of the i-th such slot. |
| Cascade.ListSlots | lib/dotenv-flow.js:85-103 | A slot is listed exactly when its candidate is set, non-empty and exists; the listed slots are in strictly increasing cascade order. |
| Cascade.ListFiles | lib/dotenv-flow.js:85-103 | At most five files. The i-th file is the candidate of the i-th listed slot, and it exists. |
| Cascade.ListFilesInSlotOrder | lib/dotenv-flow.js:85-103 | The cascade is the five slots' entries concatenated in the order defaults, base, local, node_env, node_env-local. |
| Cascade.ListFilesOnlyProbesCandidates | lib/dotenv-flow.js:92-103 | Two filesystems that agree on which candidates exist give the same cascade. |
| Merge.ReadFile | lib/dotenv-flow.js:116-118 | Reading succeeds exactly for a readable file and gives its decoded variables. A missing file fails like an unreadable one, naming the file. |
| Merge.ParseInto | lib/dotenv-flow.js:120-122 | The merging reduce keeps every key of the accumulator. A failure names a file of the list that cannot be read. |
| Merge.ParseIntoSpec | lib/dotenv-flow.js:120-122 | The merging reduce succeeds exactly when every file is readable, and otherwise fails with the first unreadable file. On success it holds the accumulator's keys plus every key some file defines. Each defined key gets the value of the last file that defines it; other keys keep the accumulator's value. |
| Merge.Parse | lib/dotenv-flow.js:115-123 | Parsing a list succeeds exactly when all files are readable and otherwise reports the first unreadable one. Its keys are exactly those some file defines, each with the value from the last file that defines it. |
| Merge.ParseSingle | lib/dotenv-flow.js:116-118 | A single file parses to its own variables, or fails with that file. |
| Merge.ParseOverwrites | lib/dotenv-flow.js:120-122 | For a key defined in two files, the second file's value wins. |
| Merge.SafeMerge | lib/dotenv-flow.js:152-159 | The merged store has the store's keys plus the parsed keys. A variable already set keeps its value; a new variable gets the parsed value. |
| Merge.ApplyParsed | lib/dotenv-flow.js:152-159 | The loop over the parsed keys produces the safe merge. The keys it skips are exactly the parsed keys already in the store. |
| Merge.Load | lib/dotenv-flow.js:145-166 | `load` fails exactly when some file is unreadable, names the first unreadable file and leaves the store untouched. On success it returns the parsed variables, keeps every predefined value and adds the new keys with their parsed values. |
| Merge.Unload | lib/dotenv-flow.js:182-190 | A parse failure is passed on. Otherwise a key is deleted exactly when the store holds it with the parsed value, and every other key keeps its value. |
| Merge.LoadThenUnload | lib/dotenv-flow.js:145-190 | Unloading what was just loaded removes every key that was new. A predefined key survives unless its value equals the parsed one. |
| Merge.UnloadIsNotARestore | lib/dotenv-flow.js:182-190 | A concrete store where `load` changes nothing and `unload` then deletes the predefined variable. |
| Replacement.ComposeAsWritten | lib/dotenv-flow.js:21-35 | `composeFilename` as written: the local pass, then the node_env replace() whose template `$1<name>$2` is expanded as JavaScript does. For a falsy name or a name without `$` it is the name `Patterns.Compose` gives. |
| Replacement.ShownAsWritten | lib/dotenv-flow.js:228-230 | The pattern shown in the "no files" error as written, through the template `[$1<name>$2]`. For a name without `$` it is the pattern `ShowEnv` shows. |
| Replacement.ComposeAsWrittenAgrees | lib/dotenv-flow.js:29-32 | With the replace() template `$1<name>$2` expanded as JavaScript does, the name is the same as `Patterns.Compose` gives whenever the name is falsy or has no `$`. |
| Replacement.ShownAsWrittenAgrees | lib/dotenv-flow.js:228-230 | With the template `[$1<name>$2]` expanded as JavaScript does, the error shows the same pattern as `ShowEnv` for a name without `$`. |
| Replacement.AmpersandNameExpands | lib/dotenv-flow.js:29-32 | The name `$&` with the default pattern composes to `.env.[.node_env]` as written, not `.env.$&`. |
| Replacement.AmpersandNameShown | lib/dotenv-flow.js:228-230 | The name `$&` makes the error show `.env[.[.node_env]][.local]` as written, not `.env[.$&][.local]`. |
| Replacement.AfterNameEmpties | lib/dotenv-flow.js:29-32 | The name `$'` with the pattern `[node_env]` composes to the empty name as written, not `$'`. |
| Config.EffectiveNodeEnv | lib/dotenv-flow.js:206-207 | The environment name is the explicit option if given. Otherwise it is the store's `NODE_ENV` if non-empty, and otherwise the default name. |
| Config.ShownPattern | lib/dotenv-flow.js:228-230 | Without a truthy name, or without a node_env group, the error shows the pattern as it is. For the default pattern and a truthy name E it shows `.env[.E][.local]`. |
| Config.NoFilesMessage | lib/dotenv-flow.js:228-234 | The "no files" message contains the shown pattern and the directory, and the pattern's own text when the name is falsy. |
| Config.Purge | lib/dotenv-flow.js:214-222 | The purge step leaves the store as it is when `<dir>/.env` does not exist, and otherwise unloads exactly that file. |
| Config.Config | lib/dotenv-flow.js:205-242 | Without purge, a failure leaves the store as it was and predefined variables are never changed. On success every parsed key ends up in the store. |
| Config.ConfigPurgeFails | lib/dotenv-flow.js:214-222 | An unreadable `.env` under purge is reported at once, naming that file, with the store untouched. |
| Config.ConfigEmptyCascade | lib/dotenv-flow.js:224-235 | An empty cascade gives the "no files" error, whose message names the directory and the shown pattern; the store is the purged one. |
| Config.ConfigLoadsCascade | lib/dotenv-flow.js:224-237 | A non-empty cascade is passed to `load`, whose result is returned unchanged. |
| Config.ConfigDefaultOptions | lib/dotenv-flow.js:205-237 | With no option but `node_env`, no `NODE_ENV` in the store and `.env` present in the current directory, the cascade is non-empty and `config` returns what `load` does on it. |
| Config.TwoFilesCascade | lib/dotenv-flow.js:56-104 | With `.env` and `.env.local` present, the default cascade is both files with no name, and only `.env` for `test`. |
| Config.TwoFilesParse | lib/dotenv-flow.js:120-122 | Parsing `.env` (A=1) then `.env.local` (A=2, B=3) gives A=2, B=3. |
| Config.ScenarioDefault | lib/dotenv-flow.js:205-242 | `config` with no options on an empty store loads A=2, B=3. |
| Config.ScenarioTest | lib/dotenv-flow.js:205-242 | `config` for `test` leaves `.env.local` out and loads only A=1. |
| Config.ScenarioPredefined | lib/dotenv-flow.js:152-159 | A value set before `load` wins over the file's value. |
| Config.ScenarioPurge | lib/dotenv-flow.js:214-237 | A store already holding `.env`'s A=1 is purged first, so the cascade's A=2 applies. |
| Config.ScenarioNoPurge | lib/dotenv-flow.js:205-242 | Without purge, the stale A=1 stays and only B=3 is added. |
| CliOptions.OptionsFrom | lib/cli-options.js:25-41 | The options read from a position are always among the table's option names. |
| CliOptions.Assignment | lib/cli-options.js:28-39 | An argument assigns an option only when it is a switch, bare or in the `=` form, that names that option. |
| CliOptions.ParseArgv | lib/cli-options.js:22-44 | The index loop, which skips a bare switch's value and otherwise tries `flag=` for each switch, computes the options of the reference reading. |
| CliOptions.FindEq | lib/cli-options.js:33-40 | The reference for the inner loop: the switch found is in the order and `arg` starts with it followed by `=`; when none is found, no switch of the order matches. |
| CliOptions.FindSwitchEq | lib/cli-options.js:33-40 | The inner loop finds the first switch `f` with `arg` starting with `f=`, or none. |
| CliOptions.CliOptionsOf | lib/cli-options.js:3-44 | `cli_options` with the repository's table returns the reference options, whose keys are values of the table. |
| CliOptions.CliTableValid | lib/cli-options.js:3-14 | The switch order lists exactly the table's switches, and no switch contains `=`. |
| CliOptions.OnlyOccurringSwitches | lib/cli-options.js:28-39 | An option is present only if a switch naming it occurs in argv, bare or in the `=` form; every option is a value of the table. |
| CliOptions.UnrelatedArguments | lib/cli-options.js:25-41 | Arguments that mention no switch give no options. |
| CliOptions.SwitchTakesNext | lib/cli-options.js:28-31 | A bare switch takes the next argument, uninterpreted, as its value; the arguments after that are read as usual and override it. |
| CliOptions.DanglingSwitch | lib/cli-options.js:28-31 | A bare switch as the last argument gives its option with no value. |
| CliOptions.EqPrefixUnique | lib/cli-options.js:33-39 | Only the switch `flag` itself matches `flag=`, since no switch contains `=`. |
| CliOptions.EqFormKeepsRest | lib/cli-options.js:33-39 | `flag=rest` assigns everything after the first `=` verbatim, including any further `=`. |
| CliOptions.LaterOccurrenceWins | lib/cli-options.js:25-41 | After a prefix that leaves no switch waiting for its value, the suffix's options override the prefix's, so a later occurrence of a switch wins. |
| CliOptions.CliRuntimeArguments | lib/cli-options.js:25-41 | The runtime's own arguments `node -r dotenv-flow/config` give no options and leave no switch waiting for a value. |
| CliOptions.CliTwoSwitches | lib/cli-options.js:3-31 | `--default-node-env E --dotenv-flow-encoding C` gives exactly `default_node_env` = E and `encoding` = C. |
| CliOptions.CliUnrelatedSwitches | lib/cli-options.js:25-41 | `--foo bar --baz=qux` gives no options (test/unit/cli-options.spec.js:68-70). |
| CliOptions.CliSwitchesAfterRuntimeArguments | lib/cli-options.js:25-41 | `node -r dotenv-flow/config --default-node-env E --dotenv-flow-encoding C` gives exactly `default_node_env` and `encoding` (test/unit/cli-options.spec.js:55-66). |
| EnvOptions.ProjectIntoSpec | lib/env-options.js:18-24 | The reduce adds exactly the option names of the table variables set in the environment, each with its variable's value, and keeps every other entry. |
| EnvOptions.FromEnvWith | lib/env-options.js:17-25 | For a table with distinct option names, the keys are exactly `{MAP[v] : v in MAP, v set}`, and each value is the variable's value, verbatim. |
| EnvOptions.FromEnv | lib/env-options.js:3-25 | The same for the repository's five-entry table. |
| EnvOptions.OthersIgnored | lib/env-options.js:17-25 | Two environments that agree on the table's variables give the same options. |
| EnvOptions.OptionIffVariable | lib/env-options.js:20-22 | An option is present exactly when the variable renamed to it is set. |
| EnvOptions.NoSilentNoPattern | lib/env-options.js:3-9 | Neither `silent` nor `pattern` is ever produced. |
| EnvOptions.EnvSomeSet | lib/env-options.js:17-25 | With only `DEFAULT_NODE_ENV` and `DOTENV_FLOW_ENCODING` set, the result is exactly those two options (test/unit/env-options.spec.js:26-35). |
| EnvOptions.EnvUnrelated | lib/env-options.js:17-25 | An environment with only `PATH` gives no options (test/unit/env-options.spec.js:37-39). |

## Left out

- The placeholder regexes (lib/dotenv-flow.js:9-10) are not modelled. This covers their `\W*`/`\b` matching and the `lastIndex` state of the global regexes used with `.test` (lines 63 and 77). Patterns are kept as segments instead. `Patterns.WellFormed` is a sufficient condition for the regexes to split a pattern's text the same way.
- The real filesystem, `fs.existsSync` and `path.resolve` are not modelled. A path is an abstract (directory, name) pair, and existence and contents come from a map. The model does not claim that cascade entries are distinct.
- The dotenv text grammar (the external `dotenv` package) is not modelled: a readable file is given by its already-decoded variables. The `encoding` option only passes through to the reader, so it is omitted.
- `console.warn` and the `silent` option (lib/dotenv-flow.js:156-158) are logging only. `Merge.ApplyParsed` returns the set of skipped keys instead.
- The prototype-chain behaviour of JavaScript's `in` (lib/cli-options.js:28) is not modelled; plain map membership is used. A non-string argv element is likewise out of scope.
- `purge_dotenv` is modelled as a boolean, while the source accepts any truthy value.
- Errors thrown by `listFiles` inside `config` (lib/dotenv-flow.js:239-241) are not modelled: the only failures are read errors and an empty cascade.
- config.js, the preload entry that reads `process.env` and argv and calls `config`, is not part of this model. Neither are the type declarations, whose `files` and `debug` options are not implemented.
- The process environment is a parameter (the store). The current directory is the `cwd` parameter of `Config.Config`.
- Patterns.Compose inserts the environment name verbatim. The code splices it into a replace() template, where `$$`, `$&`, `` $` ``, `$'`, `$1` and `$2` inside the name are expanded. That as-written behaviour is `Replacement.ComposeAsWritten`; it agrees with `Compose` for every name without `$` (see "Findings"). Every lemma stated in terms of `Compose` inherits this: `ComposeCons`, `ComposeAppend`, `ComposeRewritesEveryGroup`, `ComposeNoBrackets`, `ComposeEnvNonEmpty`, `ComposeDefault`, `ComposeNested`, `ComposeDefaultNames`, `Cascade.SlotNames`, `Cascade.Candidate` and `Cascade.DefaultCandidates`. Each has its own line below.
- Patterns.ComposeCons states the verbatim insertion segment by segment; the template expansion is left out for the same reason.
- Patterns.ReplaceEnvEach: a node_env group becomes prefix + name + suffix only for a name without `$`. As written, `$&`, `` $` ``, `$'`, `$1` and `$2` in the name are expanded (`Replacement.ComposeAsWritten`).
- Patterns.ComposeAppend holds for the verbatim insertion only. As written, `` $` `` and `$'` in the name expand to the text before and after the group, so composing a concatenation is not the concatenation of the composed parts.
- Patterns.ComposeRewritesEveryGroup holds for the verbatim insertion only. As written, the name `$&` puts the matched group text back into the name (`Replacement.AmpersandNameExpands`).
- Patterns.ComposeNoBrackets holds for the verbatim insertion only. As written, the bracket-free name `$&` gives `.env.[.node_env]` for the default pattern (`Replacement.AmpersandNameExpands`).
- Patterns.ComposeEnvNonEmpty holds for the verbatim insertion only. As written, the name `$'` with the pattern `[node_env]` composes to the empty name (`Replacement.AfterNameEmpties`).
- Cascade.Candidate: "the names of the last three slots are never empty" holds for the verbatim insertion only. As written, the name `$'` with the pattern `[node_env]` gives an empty node_env name, and lib/dotenv-flow.js:94-96 then drops that slot (`Replacement.AfterNameEmpties`).
- Cascade.SlotNames gives each slot the verbatim composition. For a name with `$` the code probes the as-written name instead (`Replacement.ComposeAsWritten`).
- Patterns.ShowEnvDefault shows the name verbatim inside the brackets. The code's template `[$1<name>$2]` expands `$` sequences (`Replacement.ShownAsWritten`); the name `$&` shows `.env[.[.node_env]][.local]` (`Replacement.AmpersandNameShown`).
- Config.ShownPattern shows the name verbatim, as `Patterns.ShowEnvDefault` does. The code's error message uses `Replacement.ShownAsWritten` instead, which agrees for names without `$`.
- Patterns.ComposeDefault gives `.env.<name>` and `.env.<name>.local` with the name verbatim. As written, the name `$&` gives `.env.[.node_env]` (`Replacement.AmpersandNameExpands`); names without `$` agree (`Replacement.ComposeAsWritten`).
- Patterns.ComposeNested states the nested pattern's names with the name verbatim. As written they are `Replacement.ComposeAsWritten` of the same pattern, which agrees for names without `$`.
- Patterns.ComposeDefaultNames states `.env.<name>` and `.env.<name>.local` with the name verbatim. As written they are `Replacement.ComposeAsWritten` of the default pattern, which differs for `$&` (`Replacement.AmpersandNameExpands`).
- Cascade.DefaultCandidates names the node_env files `.env.<name>` and `.env.<name>.local` with the name verbatim. As written the code probes `Replacement.ComposeAsWritten` of the default pattern, which differs for `$&` (`Replacement.AmpersandNameExpands`).
- Merge.Load models `process.env` as a plain, case-sensitive map. Node's environment object is neither. A variable named `hasOwnProperty`, already set or parsed from an earlier file, shadows the method called at lib/dotenv-flow.js:153. The next call then throws, the catch at line 163 returns `{ error }`, and the store may already be partly written. On Windows, names that differ only by case are the same variable. Neither quirk is modelled, so Load's "fails exactly when a file is unreadable, store untouched" holds only for the plain map.
- Config.Config inherits the same two gaps through `Merge.Load`: its promise that a failed config without purge leaves the store as it was holds only for the plain map, since a parsed `hasOwnProperty` makes line 153 throw after a partial write.
- Merge.ApplyParsed uses plain map membership for `hasOwnProperty`, with the same two gaps as `Merge.Load`. `Merge.Unload` and `EnvOptions.FromEnv` use plain, case-sensitive membership too.

## Findings

| source | as written | input that shows it | evidently intended | confidence | as-written member | corrected member |
|---|---|---|---|---|---|---|
| lib/dotenv-flow.js:29-32 | The environment name is spliced into the replace() template `$1<name>$2`, so `$` sequences in it are expanded. | node_env `$&`, the default pattern, no local: `.env.[.node_env]` | The name inserted verbatim: `.env.$&` | not executed; follows from the replace() template rules of ECMA-262 | Replacement.AmpersandNameExpands | Patterns.Compose |
| lib/dotenv-flow.js:228-230 | The same splice in the error message's template `[$1<name>$2]`. | node_env `$&`, the default pattern: `.env[.[.node_env]][.local]` | `.env[.$&][.local]` | not executed; follows from the replace() template rules of ECMA-262 | Replacement.AmpersandNameShown | Patterns.ShowEnvDefault |
| lib/dotenv-flow.js:31 | The same splice: `$'` in the name expands to the text after the match. | node_env `$'`, the pattern `[node_env]`: the empty name, so the node_env slot is dropped at lines 94-96 | The name inserted verbatim: `$'` | not executed; follows from the replace() template rules of ECMA-262 | Replacement.AfterNameEmpties | Patterns.Compose |

=== FILE: cascade.dfy ===
/**
 `listFiles`: the "environment cascade" of `.env*` files for a directory, a
 naming pattern and an environment name, lowest priority first.
 */
module Cascade {
  import opened Wrappers
  import opened Files
  import opened Patterns

  /** The five layers of the cascade. */
  datatype Slot = Defaults | Base | Local | NodeEnv | NodeEnvLocal

  /** The fixed order the layers are listed in, lowest priority first. */
  const SlotOrder: seq<Slot> := [Defaults, Base, Local, NodeEnv, NodeEnvLocal]

  /** The legacy defaults file, listed only for the reserved default pattern. */
  const DefaultsName: string := ".env.defaults"

  /** The name given to `Unload` when `.env` is purged. */
  const DotenvName: string := ".env"

  /** Every slot appears in `SlotOrder`, by increasing rank. */
  lemma SlotOrderIsRanked()
    ensures forall s: Slot :: s in SlotOrder
    ensures StrictlyIncreasing(SlotOrder)
  {
    forall s: Slot ensures s in SlotOrder {
      assert SlotOrder[Rank(s)] == s;
    }
  }

  function Rank(s: Slot): nat {
    match s
    case Defaults => 0
    case Base => 1
    case Local => 2
    case NodeEnv => 3
    case NodeEnvLocal => 4
  }

  predicate StrictlyIncreasing(ss: seq<Slot>) {
    forall i, j :: 0 <= i < j < |ss| ==> Rank(ss[i]) < Rank(ss[j])
  }

  /** `pattern === DEFAULT_PATTERN` compares the pattern's text. */
  predicate IsDefaultPattern(p: Pattern) {
    Render(p) == DefaultPatternText
  }

  /**
   The `filenames` table built before filtering: the name composed for a slot,
   or `None` when the slot is not set at all.
   */
  function SlotName(p: Pattern, nodeEnv: Option<string>, s: Slot): Option<string> {
    match s
    case Defaults => if IsDefaultPattern(p) then Some(DefaultsName) else None
    case Base => Some(Compose(p, false, None))
    case Local =>
      if nodeEnv != Some("test") && HasLocal(p) then Some(Compose(p, true, None)) else None
    case NodeEnv =>
      if Truthy(nodeEnv) && HasEnv(p) then Some(Compose(p, false, nodeEnv)) else None
    case NodeEnvLocal =>
      if Truthy(nodeEnv) && HasEnv(p) && HasLocal(p) then Some(Compose(p, true, nodeEnv)) else None
  }

  /**
   The resolved path of a slot; unset slots and empty names are skipped. A
   slot has a candidate exactly when its rule holds: defaults only for the
   default pattern text; base when the bare name is non-empty; local with a
   local group and a name other than "test"; node_env with a truthy name and a
   node_env group; node_env-local additionally with a local group, even for
   "test". (The names the local and node_env rules produce are never empty.)
   */
  function Candidate(dir: string, p: Pattern, nodeEnv: Option<string>, s: Slot): (r: Option<Path>)
    ensures r.Some? ==> r.value.dir == dir
    ensures s == Defaults ==> (r.Some? <==> IsDefaultPattern(p))
    ensures s == Base ==> (r.Some? <==> Compose(p, false, None) != "")
    ensures s == Local ==> (r.Some? <==> HasLocal(p) && nodeEnv != Some("test"))
    ensures s == NodeEnv ==> (r.Some? <==> Truthy(nodeEnv) && HasEnv(p))
    ensures s == NodeEnvLocal ==> (r.Some? <==> Truthy(nodeEnv) && HasEnv(p) && HasLocal(p))
  {
    SlotNamesNonEmpty(p, nodeEnv, s);
    var n := SlotName(p, nodeEnv, s);
    if n.Some? && n.value != "" then Some(Path(dir, n.value)) else None
  }

  /** The names of the local and node_env slots, when set, are never empty. */
  lemma SlotNamesNonEmpty(p: Pattern, e: Option<string>, s: Slot)
    ensures s in {Local, NodeEnv, NodeEnvLocal} && SlotName(p, e, s).Some? ==> SlotName(p, e, s).value != ""
  {
    if s == Local && HasLocal(p) {
      ComposeLocalNonEmpty(p, None);
    } else if s == NodeEnvLocal && HasLocal(p) {
      ComposeLocalNonEmpty(p, e);
    } else if s == NodeEnv && HasEnv(p) && Truthy(e) {
      ComposeEnvNonEmpty(p, false, e);
    }
  }

  /** A slot whose candidate file exists. */
  predicate Present(fs: FileSystem, dir: string, p: Pattern, nodeEnv: Option<string>, s: Slot) {
    var c := Candidate(dir, p, nodeEnv, s);
    c.Some? && Exists(fs, c.value)
  }

  /** The slots of `slots` whose candidate exists, in the order given. */
  function PresentSlots(fs: FileSystem, dir: string, p: Pattern, nodeEnv: Option<string>, slots: seq<Slot>)
    : (r: seq<Slot>)
    ensures forall s :: s in r <==> s in slots && Present(fs, dir, p, nodeEnv, s)
    ensures StrictlyIncreasing(slots) ==> StrictlyIncreasing(r)
    ensures |r| <= |slots|
  {
    if slots == [] then []
    else
      var rest := PresentSlots(fs, dir, p, nodeEnv, slots[1..]);
      if Present(fs, dir, p, nodeEnv, slots[0]) then
        assert StrictlyIncreasing(slots) ==> forall j :: 0 <= j < |rest| ==> Rank(slots[0]) < Rank(rest[j]) by {
          if StrictlyIncreasing(slots) {
            forall j | 0 <= j < |rest| ensures Rank(slots[0]) < Rank(rest[j]) {
              assert rest[j] in slots[1..];
            }
          }
        }
        [slots[0]] + rest
      else rest
  }

  /**
   The `reduce` over the slot names: each set, non-empty name is resolved
   against `dir` and kept when the file exists.
   */
  function Collect(fs: FileSystem, dir: string, p: Pattern, nodeEnv: Option<string>, slots: seq<Slot>)
    : (r: seq<Path>)
    ensures |r| == |PresentSlots(fs, dir, p, nodeEnv, slots)|
    ensures forall i :: 0 <= i < |r| ==>
      Candidate(dir, p, nodeEnv, PresentSlots(fs, dir, p, nodeEnv, slots)[i]) == Some(r[i])
  {
    if slots == [] then []
    else
      var rest := Collect(fs, dir, p, nodeEnv, slots[1..]);
      if Present(fs, dir, p, nodeEnv, slots[0]) then
        var c := Candidate(dir, p, nodeEnv, slots[0]).value;
        ConsCandidates(dir, p, nodeEnv, slots[0], c, PresentSlots(fs, dir, p, nodeEnv, slots[1..]), rest);
        [c] + rest
      else rest
  }

  /** Putting one more slot and its candidate in front keeps the two lists in step. */
  lemma ConsCandidates(dir: string, p: Pattern, nodeEnv: Option<string>, s: Slot, c: Path, ps: seq<Slot>, rest: seq<Path>)
    requires |rest| == |ps|
    requires Candidate(dir, p, nodeEnv, s) == Some(c)
    requires forall i :: 0 <= i < |rest| ==> Candidate(dir, p, nodeEnv, ps[i]) == Some(rest[i])
    ensures forall i :: 0 <= i < |rest| + 1 ==> Candidate(dir, p, nodeEnv, ([s] + ps)[i]) == Some(([c] + rest)[i])
  {
    forall i | 0 <= i < |rest| + 1 ensures Candidate(dir, p, nodeEnv, ([s] + ps)[i]) == Some(([c] + rest)[i]) {
      if i > 0 {
        assert ([s] + ps)[i] == ps[i - 1];
        assert ([c] + rest)[i] == rest[i - 1];
      }
    }
  }

  /** The slots that make it into the cascade. */
  function ListSlots(fs: FileSystem, dir: string, p: Pattern, nodeEnv: Option<string>): (r: seq<Slot>)
    ensures forall s :: s in r <==> Present(fs, dir, p, nodeEnv, s)
    ensures StrictlyIncreasing(r)
  {
    SlotOrderIsRanked();
    PresentSlots(fs, dir, p, nodeEnv, SlotOrder)
  }

  /**
   `listFiles`: the existing candidates, one per present slot, in the fixed
   slot order whatever the filesystem holds.
   */
  function ListFiles(fs: FileSystem, dir: string, p: Pattern, nodeEnv: Option<string>): (r: seq<Path>)
    ensures |r| == |ListSlots(fs, dir, p, nodeEnv)| <= 5
    ensures forall i :: 0 <= i < |r| ==>
      Candidate(dir, p, nodeEnv, ListSlots(fs, dir, p, nodeEnv)[i]) == Some(r[i]) && Exists(fs, r[i])
  {
    var r := Collect(fs, dir, p, nodeEnv, SlotOrder);
    var slots := ListSlots(fs, dir, p, nodeEnv);
    forall i | 0 <= i < |r| ensures Exists(fs, r[i]) {
      assert slots[i] in slots;
    }
    r
  }

  // ---------------------------------------------------------------------------
  // Which slots are set

  /** The names composed for each set slot. */
  lemma SlotNames(dir: string, p: Pattern, e: Option<string>)
    ensures IsDefaultPattern(p) ==> Candidate(dir, p, e, Defaults) == Some(Path(dir, DefaultsName))
    ensures Compose(p, false, None) != "" ==> Candidate(dir, p, e, Base) == Some(Path(dir, Compose(p, false, None)))
    ensures HasLocal(p) && e != Some("test") ==>
      Candidate(dir, p, e, Local) == Some(Path(dir, Compose(p, true, None)))
    ensures Truthy(e) && HasEnv(p) ==>
      Candidate(dir, p, e, NodeEnv) == Some(Path(dir, Compose(p, false, e)))
    ensures Truthy(e) && HasEnv(p) && HasLocal(p) ==>
      Candidate(dir, p, e, NodeEnvLocal) == Some(Path(dir, Compose(p, true, e)))
  {
  }

  /**
   The default pattern's cascade candidates: `.env.defaults`, `.env`,
   `.env.local` unless the name is "test", and the two name-specific files
   when the name is truthy.
   */
  lemma DefaultCandidates(dir: string, e: Option<string>)
    ensures Candidate(dir, DefaultPattern, e, Defaults) == Some(Path(dir, DefaultsName))
    ensures Candidate(dir, DefaultPattern, e, Base) == Some(Path(dir, ".env"))
    ensures Candidate(dir, DefaultPattern, e, Local) ==
      if e != Some("test") then Some(Path(dir, ".env.local")) else None
    ensures Candidate(dir, DefaultPattern, e, NodeEnv) ==
      if Truthy(e) then Some(Path(dir, ".env." + e.value)) else None
    ensures Candidate(dir, DefaultPattern, e, NodeEnvLocal) ==
      if Truthy(e) then Some(Path(dir, ".env." + e.value + ".local")) else None
  {
    DefaultPatternRenders();
    ComposeDefaultNames(if Truthy(e) then e.value else "x");
    SlotNames(dir, DefaultPattern, e);
  }

  /**
   For the "test" environment the local layer is never listed, whatever
   exists, while the test-specific local layer still is.
   */
  lemma TestExcludesLocal(fs: FileSystem, dir: string, p: Pattern)
    ensures Local !in ListSlots(fs, dir, p, Some("test"))
    ensures NodeEnvLocal in ListSlots(fs, dir, p, Some("test")) <==>
      HasEnv(p) && HasLocal(p) && Exists(fs, Path(dir, Compose(p, true, Some("test"))))
  {
    SlotNames(dir, p, Some("test"));
  }

  /**
   The cascade depends on the filesystem only through which candidates exist:
   two filesystems that agree on that list the same files.
   */
  lemma ListFilesOnlyProbesCandidates(fs1: FileSystem, fs2: FileSystem, dir: string, p: Pattern, e: Option<string>)
    requires forall s: Slot :: Present(fs1, dir, p, e, s) <==> Present(fs2, dir, p, e, s)
    ensures ListFiles(fs1, dir, p, e) == ListFiles(fs2, dir, p, e)
  {
    CollectOnlyProbesCandidates(fs1, fs2, dir, p, e, SlotOrder);
  }

  lemma {:induction false} CollectOnlyProbesCandidates(
    fs1: FileSystem, fs2: FileSystem, dir: string, p: Pattern, e: Option<string>, slots: seq<Slot>)
    requires forall s: Slot :: Present(fs1, dir, p, e, s) <==> Present(fs2, dir, p, e, s)
    ensures Collect(fs1, dir, p, e, slots) == Collect(fs2, dir, p, e, slots)
  {
    if slots != [] {
      assert Present(fs1, dir, p, e, slots[0]) <==> Present(fs2, dir, p, e, slots[0]);
      CollectOnlyProbesCandidates(fs1, fs2, dir, p, e, slots[1..]);
    }
  }

  /** The cascade entry a slot contributes: its candidate when that exists, nothing otherwise. */
  function Entry(fs: FileSystem, dir: string, p: Pattern, e: Option<string>, s: Slot): seq<Path> {
    if Present(fs, dir, p, e, s) then [Candidate(dir, p, e, s).value] else []
  }

  /**
   The cascade is the five slots' entries concatenated in the fixed order
   defaults < base < local < node_env < node_env-local.
   */
  lemma ListFilesInSlotOrder(fs: FileSystem, dir: string, p: Pattern, e: Option<string>)
    ensures ListFiles(fs, dir, p, e) ==
      Entry(fs, dir, p, e, Defaults) + (Entry(fs, dir, p, e, Base) + (Entry(fs, dir, p, e, Local)
      + (Entry(fs, dir, p, e, NodeEnv) + Entry(fs, dir, p, e, NodeEnvLocal))))
  {
    var tail := [NodeEnvLocal];
    var all := [Defaults] + ([Base] + ([Local] + ([NodeEnv] + tail)));
    assert SlotOrder == all;
    assert ListFiles(fs, dir, p, e) == Collect(fs, dir, p, e, all);
    CollectOne(fs, dir, p, e, NodeEnvLocal);
    CollectCons(fs, dir, p, e, NodeEnv, tail);
    CollectCons(fs, dir, p, e, Local, [NodeEnv] + tail);
    CollectCons(fs, dir, p, e, Base, [Local] + ([NodeEnv] + tail));
    CollectCons(fs, dir, p, e, Defaults, [Base] + ([Local] + ([NodeEnv] + tail)));
  }

  /** A single slot reduces to its own entry. */
  lemma CollectOne(fs: FileSystem, dir: string, p: Pattern, e: Option<string>, s: Slot)
    ensures Collect(fs, dir, p, e, [s]) == Entry(fs, dir, p, e, s)
  {
    assert [s][1..] == [];
  }

  /** The reduce contributes one slot's entry at a time. */
  lemma CollectCons(fs: FileSystem, dir: string, p: Pattern, e: Option<string>, s: Slot, rest: seq<Slot>)
    ensures Collect(fs, dir, p, e, [s] + rest) == Entry(fs, dir, p, e, s) + Collect(fs, dir, p, e, rest)
  {
    assert ([s] + rest)[1..] == rest;
  }
}

=== FILE: cli_options.dfy ===
/**
 `cli_options(argv)`: the options given on the command line, either as
 `--switch value` or as `--switch=value`, renamed through a fixed table.
 An option given with a dangling switch (the last argument) is present
 with no value.

 The scanner is stated for any switch table; `CliTable` is the one the
 repository uses.
 */
module CliOptions {
  import opened Wrappers

  /** The command-line options found: option name to value, `None` when the value is missing. */
  type ArgOptions = map<string, Option<string>>

  /** A switch-to-option table, with its switches in declaration order. */
  datatype Table = Table(names: map<string, string>, order: seq<string>)

  /** The order lists exactly the switches, and no switch contains `=`. */
  predicate ValidTable(t: Table) {
    (forall f :: f in t.order ==> f in t.names) &&
    (forall f :: f in t.names ==> f in t.order) &&
    (forall f :: f in t.names ==> '=' !in f)
  }

  /** The switch-to-option table of `cli_options`. */
  const CliOptionsMap: map<string, string> := map[
    "--node-env" := "node_env",
    "--default-node-env" := "default_node_env",
    "--dotenv-flow-path" := "path",
    "--dotenv-flow-pattern" := "pattern",
    "--dotenv-flow-encoding" := "encoding",
    "--dotenv-flow-purge-dotenv" := "purge_dotenv",
    "--dotenv-flow-debug" := "debug",
    "--dotenv-flow-silent" := "silent"]

  /** `CliOptionsMap` with its switches in declaration order, the order the `=` form tries them in. */
  const CliTable: Table := Table(CliOptionsMap, [
    "--node-env", "--default-node-env", "--dotenv-flow-path", "--dotenv-flow-pattern",
    "--dotenv-flow-encoding", "--dotenv-flow-purge-dotenv", "--dotenv-flow-debug",
    "--dotenv-flow-silent"])

  predicate StartsWith(s: string, prefix: string) {
    |prefix| <= |s| && s[..|prefix|] == prefix
  }

  /** The first switch `f` of `flags` such that `arg` starts with `f=`. */
  function FindEq(arg: string, flags: seq<string>): (r: Option<string>)
    ensures r.Some? ==> r.value in flags && StartsWith(arg, r.value + "=")
    ensures r.None? ==> forall f :: f in flags ==> !StartsWith(arg, f + "=")
  {
    if flags == [] then None
    else if StartsWith(arg, flags[0] + "=") then Some(flags[0])
    else FindEq(arg, flags[1..])
  }

  /** How many arguments the one at `i` takes: a bare switch also takes the next. */
  function Width(t: Table, argv: seq<string>, i: nat): nat
    requires i < |argv|
  {
    if argv[i] in t.names then 2 else 1
  }

  /**
   What the argument at `i` assigns, if anything: a bare switch assigns the
   next argument (or nothing, when there is none) to its option; `flag=rest`
   for a switch `flag` assigns `rest`. (The lookup of the switch found in the
   order always succeeds for a valid table; the guard only keeps the scanner
   total for any table.)
   */
  function Assignment(t: Table, argv: seq<string>, i: nat): (r: Option<(string, Option<string>)>)
    requires i < |argv|
    ensures r.Some? ==> exists f :: Mentions(t, argv[i], f, r.value.0)
  {
    var arg := argv[i];
    if arg in t.names then
      assert Mentions(t, arg, arg, t.names[arg]);
      Some((t.names[arg], if i + 1 < |argv| then Some(argv[i + 1]) else None))
    else
      var f := FindEq(arg, t.order);
      if f.Some? && f.value in t.names then
        assert Mentions(t, arg, f.value, t.names[f.value]);
        Some((t.names[f.value], Some(arg[|f.value| + 1..])))
      else None
  }

  /** `arg` is the switch `f`, bare or in the `=` form, and `f` names option `k`. */
  predicate Mentions(t: Table, arg: string, f: string, k: string) {
    f in t.names && t.names[f] == k && (arg == f || StartsWith(arg, f + "="))
  }

  /** The argument at `j` assigns option `k`. */
  predicate AssignsAt(t: Table, argv: seq<string>, j: nat, k: string)
  {
    j < |argv| && Assignment(t, argv, j).Some? && Assignment(t, argv, j).value.0 == k
  }

  /** The one-entry map of what the argument at `i` assigns. */
  function StepAt(t: Table, argv: seq<string>, i: nat): ArgOptions
    requires i < |argv|
  {
    var a := Assignment(t, argv, i);
    if a.Some? then map[a.value.0 := a.value.1] else map[]
  }

  /**
   The options read from position `i` on: each argument's assignment,
   overridden by whatever later arguments assign.
   */
  function OptionsFrom(t: Table, argv: seq<string>, i: nat): (r: ArgOptions)
    decreases |argv| - i
    ensures r.Keys <= t.names.Values
  {
    if i >= |argv| then map[]
    else
      StepAt(t, argv, i) + OptionsFrom(t, argv, i + Width(t, argv, i))
  }

  /** Reading from a position inside the list: that argument's step, then the rest. */
  lemma OptionsFromStep(t: Table, argv: seq<string>, i: nat, next: nat)
    requires i < |argv| && next == i + Width(t, argv, i)
    ensures OptionsFrom(t, argv, i) == StepAt(t, argv, i) + OptionsFrom(t, argv, next)
  {
  }

  /** Every option read from `i` on is assigned by some argument at or after `i`. */
  lemma {:induction false} OptionsFromAssigned(t: Table, argv: seq<string>, i: nat, k: string)
    requires k in OptionsFrom(t, argv, i)
    ensures exists j: nat :: i <= j && AssignsAt(t, argv, j, k)
    decreases |argv| - i
  {
    var a := Assignment(t, argv, i);
    if a.Some? && a.value.0 == k {
      assert AssignsAt(t, argv, i, k);
    } else {
      OptionsFromAssigned(t, argv, i + Width(t, argv, i), k);
    }
  }

  /** The options of the whole argument list. */
  function Options(t: Table, argv: seq<string>): ArgOptions
  {
    OptionsFrom(t, argv, 0)
  }

  /** Where scanning from `i` stops: `|argv|`, or one past it after a dangling switch. */
  function End(t: Table, argv: seq<string>, i: nat): nat
    decreases |argv| - i
  {
    if i >= |argv| then i else End(t, argv, i + Width(t, argv, i))
  }

  /** No switch of `argv` waits for a value beyond its end. */
  predicate Closed(t: Table, argv: seq<string>) {
    End(t, argv, 0) == |argv|
  }

  /**
   `cli_options`: walks the arguments once, skipping the value of a bare
   switch, and otherwise tries the `=` form against each switch in turn.
   */
  method ParseArgv(t: Table, argv: seq<string>) returns (options: ArgOptions)
    requires ValidTable(t)
    ensures options == Options(t, argv)
    ensures options.Keys <= t.names.Values
  {
    options := map[];
    var i := 0;
    while i < |argv|
      invariant 0 <= i <= |argv| + 1
      invariant Options(t, argv) == options + OptionsFrom(t, argv, i)
      decreases |argv| - i
    {
      var arg := argv[i];
      var rest := OptionsFrom(t, argv, i + Width(t, argv, i));
      if arg in t.names {
        var value := if i + 1 < |argv| then Some(argv[i + 1]) else None;
        UpdateThenOverride(options, t.names[arg], value, rest);
        options := options[t.names[arg] := value];
        i := i + 2;
      } else {
        var found := FindSwitchEq(arg, t.order);
        if found.Some? {
          var value := Some(arg[|found.value| + 1..]);
          UpdateThenOverride(options, t.names[found.value], value, rest);
          options := options[t.names[found.value] := value];
        } else {
          OverrideEmpty(rest);
        }
        i := i + 1;
      }
    }
  }

  /** The inner loop of `cli_options`: tries `arg` against `flag=` for each switch in turn. */
  method FindSwitchEq(arg: string, order: seq<string>) returns (found: Option<string>)
    ensures found == FindEq(arg, order)
    ensures found.Some? ==> found.value in order && StartsWith(arg, found.value + "=")
  {
    found := None;
    var j := 0;
    while j < |order| && found.None?
      invariant 0 <= j <= |order|
      invariant found.None? ==> FindEq(arg, order) == FindEq(arg, order[j..])
      invariant found.Some? ==> FindEq(arg, order) == found
    {
      assert order[j..][1..] == order[j + 1..];
      if StartsWith(arg, order[j] + "=") {
        found := Some(order[j]);
      }
      j := j + 1;
    }
    if found.None? {
      assert order[|order|..] == [];
    }
  }

  /** `cli_options` with the repository's switch table. */
  method CliOptionsOf(argv: seq<string>) returns (options: ArgOptions)
    ensures options == Options(CliTable, argv)
    ensures options.Keys <= CliOptionsMap.Values
  {
    CliTableValid();
    options := ParseArgv(CliTable, argv);
  }

  // ---------------------------------------------------------------------------
  // The switch table

  /** The repository's table is valid: its order lists its switches, none holding `=`. */
  lemma CliTableValid()
    ensures ValidTable(CliTable)
  {
    assert forall f :: f in CliTable.order ==> '=' !in f;
  }

  /** Overriding is associative. */
  lemma OverrideAssoc(x: ArgOptions, y: ArgOptions, z: ArgOptions)
    ensures (x + y) + z == x + (y + z)
  {
  }

  /** Overriding an empty map, or by one, changes nothing. */
  lemma OverrideEmpty(x: ArgOptions)
    ensures map[] + x == x && x + map[] == x
  {
  }

  /** An update is the same as a one-entry map that `rest` then overrides. */
  lemma UpdateThenOverride(options: ArgOptions, k: string, v: Option<string>, rest: ArgOptions)
    ensures options + (map[k := v] + rest) == options[k := v] + rest
  {
  }

  // ---------------------------------------------------------------------------
  // Properties

  /**
   Only switches that occur in `argv`, bare or in the `=` form, give their
   option a value, and every option produced is a value of the table.
   */
  lemma OnlyOccurringSwitches(t: Table, argv: seq<string>, k: string)
    requires k in Options(t, argv)
    ensures k in t.names.Values
    ensures exists j, f :: 0 <= j < |argv| && Mentions(t, argv[j], f, k)
  {
    OptionsFromAssigned(t, argv, 0, k);
    var j: nat :| AssignsAt(t, argv, j, k);
    assert Assignment(t, argv, j).value.0 == k;
    var f :| Mentions(t, argv[j], f, Assignment(t, argv, j).value.0);
  }

  /** Arguments none of which is a switch or starts with `switch=` give no options. */
  lemma {:induction false} UnrelatedArguments(t: Table, argv: seq<string>, i: nat)
    requires forall j, f, k :: 0 <= j < |argv| ==> !Mentions(t, argv[j], f, k)
    ensures OptionsFrom(t, argv, i) == map[]
    decreases |argv| - i
  {
    if i < |argv| {
      assert Assignment(t, argv, i).None?;
      UnrelatedArguments(t, argv, i + 1);
    }
  }

  /**
   A bare switch takes the next argument as its value, uninterpreted, and
   what follows is read as usual and overrides it.
   */
  lemma SwitchTakesNext(t: Table, sw: string, v: string, rest: seq<string>)
    requires sw in t.names
    ensures Options(t, [sw, v] + rest) == map[t.names[sw] := Some(v)] + Options(t, rest)
  {
    var argv := [sw, v] + rest;
    ShiftFrom(t, [sw, v], rest, 0);
    assert argv[0] == sw && argv[1] == v;
  }

  /** A bare switch as the last argument gives its option with no value. */
  lemma DanglingSwitch(t: Table, sw: string)
    requires sw in t.names
    ensures Options(t, [sw]) == map[t.names[sw] := None]
  {
    assert OptionsFrom(t, [sw], 2) == map[];
  }

  /** The position of the first `=` in `s`, or `|s|` when there is none. */
  function FirstEq(s: string): (n: nat)
    ensures n <= |s|
  {
    if s == [] || s[0] == '=' then 0 else 1 + FirstEq(s[1..])
  }

  /** In `x=y` with no `=` in `x`, the first `=` follows `x`. */
  lemma {:induction false} FirstEqAfter(x: string, y: string)
    requires '=' !in x
    ensures FirstEq(x + "=" + y) == |x|
  {
    var s := x + "=" + y;
    if x != [] {
      assert s[0] == x[0];
      assert s[1..] == x[1..] + "=" + y;
      FirstEqAfter(x[1..], y);
    }
  }

  /** A `flag=` prefix can only be matched by that flag, since switches have no `=`. */
  lemma EqPrefixUnique(t: Table, flag: string, rest: string, f: string)
    requires ValidTable(t)
    requires flag in t.names && f in t.names
    requires StartsWith(flag + "=" + rest, f + "=")
    ensures f == flag
  {
    var arg := flag + "=" + rest;
    var after := arg[|f| + 1..];
    assert arg == f + "=" + after by {
      assert arg[..|f| + 1] == f + "=";
    }
    FirstEqAfter(flag, rest);
    FirstEqAfter(f, after);
    assert f == arg[..|f|] == flag;
  }

  /** `flag=rest` assigns `rest` verbatim, whatever it contains, `=` included. */
  lemma EqFormKeepsRest(t: Table, flag: string, rest: string, tail: seq<string>)
    requires ValidTable(t)
    requires flag in t.names
    ensures Options(t, [flag + "=" + rest] + tail) == map[t.names[flag] := Some(rest)] + Options(t, tail)
  {
    var arg := flag + "=" + rest;
    var argv := [arg] + tail;
    assert arg[|flag|] == '=';
    assert arg !in t.names;
    assert arg[..|flag| + 1] == flag + "=";
    assert flag in t.order;
    var found := FindEq(arg, t.order);
    EqPrefixUnique(t, flag, rest, found.value);
    assert arg[|flag| + 1..] == rest;
    assert argv[0] == arg;
    assert Assignment(t, argv, 0) == Some((t.names[flag], Some(rest)));
    ShiftFrom(t, [arg], tail, 0);
    OptionsFromStep(t, argv, 0, |[arg]| + 0);
  }

  /** Reading `p + b` from `|p| + j` is reading `b` from `j`. */
  lemma {:induction false} ShiftFrom(t: Table, p: seq<string>, b: seq<string>, j: nat)
    ensures OptionsFrom(t, p + b, |p| + j) == OptionsFrom(t, b, j)
    decreases |b| - j
  {
    var argv := p + b;
    if j < |b| {
      var w := Width(t, b, j);
      StepShift(t, p, b, j);
      ShiftFrom(t, p, b, j + w);
      OptionsFromStep(t, argv, |p| + j, |p| + (j + w));
      OptionsFromStep(t, b, j, j + w);
    } else {
      assert OptionsFrom(t, argv, |p| + j) == map[];
    }
  }

  /** The argument at `|p| + j` of `p + b` is read as the one at `j` of `b`. */
  lemma StepShift(t: Table, p: seq<string>, b: seq<string>, j: nat)
    requires j < |b|
    ensures Width(t, p + b, |p| + j) == Width(t, b, j)
    ensures StepAt(t, p + b, |p| + j) == StepAt(t, b, j)
  {
    var argv := p + b;
    assert argv[|p| + j] == b[j];
    if j + 1 < |b| {
      assert argv[|p| + j + 1] == b[j + 1];
    }
    assert Assignment(t, argv, |p| + j) == Assignment(t, b, j);
  }

  /** A closed prefix is read on its own, then the rest overrides it. */
  lemma {:induction false} AppendFrom(t: Table, a: seq<string>, b: seq<string>, i: nat)
    requires i <= |a| && End(t, a, i) == |a|
    ensures OptionsFrom(t, a + b, i) == OptionsFrom(t, a, i) + OptionsFrom(t, b, 0)
    decreases |a| - i
  {
    var argv := a + b;
    if i == |a| {
      ShiftFrom(t, a, b, 0);
      OverrideEmpty(OptionsFrom(t, b, 0));
    } else {
      assert argv[i] == a[i];
      if i + 1 < |a| {
        assert argv[i + 1] == a[i + 1];
      }
      assert Assignment(t, argv, i) == Assignment(t, a, i);
      var next := i + Width(t, a, i);
      AppendFrom(t, a, b, next);
      OverrideAssoc(StepAt(t, a, i), OptionsFrom(t, a, next), OptionsFrom(t, b, 0));
    }
  }

  /**
   Arguments are read left to right and a later occurrence overrides an
   earlier one: after a closed prefix, the suffix's options win.
   */
  lemma LaterOccurrenceWins(t: Table, a: seq<string>, b: seq<string>)
    requires Closed(t, a)
    ensures Options(t, a + b) == Options(t, a) + Options(t, b)
    ensures forall k :: k in Options(t, b) ==> Options(t, a + b)[k] == Options(t, b)[k]
  {
    AppendFrom(t, a, b, 0);
  }

  // ---------------------------------------------------------------------------
  // The repository's table on sample command lines

  /** Unrelated switches, bare or with `=`, give no options. */
  lemma CliUnrelatedSwitches(argv: seq<string>)
    requires argv == ["--foo", "bar", "--baz=qux"]
    ensures Options(CliTable, argv) == map[]
  {
    forall j, f, k | 0 <= j < |argv| ensures !Mentions(CliTable, argv[j], f, k) {
      if f in CliOptionsMap {
        assert f[..2] == "--" && |f| > 6;
        assert argv[j] != f;
        assert !StartsWith(argv[j], f + "=");
      }
    }
    UnrelatedArguments(CliTable, argv, 0);
  }

  /** An argument not starting with `--` cannot mention a switch that does. */
  lemma NotDashed(arg: string, f: string)
    requires |arg| >= 2 && |f| >= 2 && f[..2] == "--" && arg[..2] != "--"
    ensures arg != f && !StartsWith(arg, f + "=")
  {
    assert (f + "=")[..2] == f[..2];
  }

  /** The runtime's own arguments before the script give no options and leave no switch open. */
  lemma CliRuntimeArguments(runtime: seq<string>)
    requires runtime == ["node", "-r", "dotenv-flow/config"]
    ensures Options(CliTable, runtime) == map[]
    ensures Closed(CliTable, runtime)
  {
    assert runtime[0][..2] == "no" && runtime[1][..2] == "-r" && runtime[2][..2] == "do";
    forall j, f, k | 0 <= j < |runtime| ensures !Mentions(CliTable, runtime[j], f, k) {
      if f in CliOptionsMap {
        assert f[..2] == "--";
        assert runtime[j][..2] != "--";
        NotDashed(runtime[j], f);
      }
    }
    UnrelatedArguments(CliTable, runtime, 0);
    CliRuntimeClosed(runtime);
  }

  lemma CliRuntimeClosed(runtime: seq<string>)
    requires runtime == ["node", "-r", "dotenv-flow/config"]
    ensures Closed(CliTable, runtime)
  {
    assert "node" !in CliOptionsMap && "-r" !in CliOptionsMap && "dotenv-flow/config" !in CliOptionsMap;
    assert Width(CliTable, runtime, 0) == 1 && Width(CliTable, runtime, 1) == 1 && Width(CliTable, runtime, 2) == 1;
    assert End(CliTable, runtime, 3) == 3;
    assert End(CliTable, runtime, 2) == 3;
    assert End(CliTable, runtime, 1) == 3;
  }

  /** Two bare switches, each taking the argument after it. */
  lemma CliTwoSwitches(env: string, enc: string)
    ensures Options(CliTable, ["--default-node-env", env] + ["--dotenv-flow-encoding", enc]) ==
      map["default_node_env" := Some(env), "encoding" := Some(enc)]
  {
    SwitchTakesNext(CliTable, "--default-node-env", env, ["--dotenv-flow-encoding", enc]);
    SwitchTakesNext(CliTable, "--dotenv-flow-encoding", enc, []);
    assert ["--dotenv-flow-encoding", enc] + [] == ["--dotenv-flow-encoding", enc];
    assert Options(CliTable, []) == map[];
    assert CliOptionsMap["--default-node-env"] == "default_node_env";
    assert CliOptionsMap["--dotenv-flow-encoding"] == "encoding";
    TwoEntries("default_node_env", Some(env), "encoding", Some(enc));
  }

  /** Two single entries for different options, the second overriding nothing. */
  lemma TwoEntries(a: string, x: Option<string>, b: string, y: Option<string>)
    requires a != b
    ensures map[a := x] + (map[b := y] + map[]) == map[a := x, b := y]
  {
  }

  /**
   A node command line with a preload: the runtime's own arguments give
   nothing, and each bare switch takes the argument after it.
   */
  lemma CliSwitchesAfterRuntimeArguments(runtime: seq<string>, env: string, enc: string)
    requires runtime == ["node", "-r", "dotenv-flow/config"]
    ensures Options(CliTable, runtime + (["--default-node-env", env] + ["--dotenv-flow-encoding", enc])) ==
      map["default_node_env" := Some(env), "encoding" := Some(enc)]
  {
    CliRuntimeArguments(runtime);
    var rest := ["--default-node-env", env] + ["--dotenv-flow-encoding", enc];
    LaterOccurrenceWins(CliTable, runtime, rest);
    CliTwoSwitches(env, enc);
    OverrideEmpty(Options(CliTable, rest));
  }
}

=== FILE: config.dfy ===
/**
 `config`: picks the environment name, optionally purges a previously loaded
 `.env`, builds the cascade and loads it into the variable store.
 */
module Config {
  import opened Wrappers
  import opened Files
  import opened Patterns
  import opened Cascade
  import opened Merge

  /** The options `config` reads; absent fields take their defaults. */
  datatype Options = Options(
    nodeEnv: Option<string>,
    defaultNodeEnv: Option<string>,
    path: Option<string>,
    pattern: Option<Pattern>,
    purgeDotenv: bool)

  /** No option given at all. */
  const NoOptions: Options := Options(None, None, None, None, false)

  /** The store's own environment indicator. */
  const NodeEnvVar: string := "NODE_ENV"

  /**
   The environment name: the explicit option if given, else the store's
   `NODE_ENV` if truthy, else the caller's default (possibly absent).
   */
  function EffectiveNodeEnv(opts: Options, store: Env): (e: Option<string>)
    ensures opts.nodeEnv.Some? ==> e == opts.nodeEnv
    ensures opts.nodeEnv.None? && NodeEnvVar in store && store[NodeEnvVar] != "" ==> e == Some(store[NodeEnvVar])
    ensures opts.nodeEnv.None? && !(NodeEnvVar in store && store[NodeEnvVar] != "") ==> e == opts.defaultNodeEnv
  {
    if opts.nodeEnv.Some? then opts.nodeEnv
    else if NodeEnvVar in store && store[NodeEnvVar] != "" then Some(store[NodeEnvVar])
    else opts.defaultNodeEnv
  }

  /** The working directory: the `path` option, or the process's current directory. */
  function Dir(opts: Options, cwd: string): string {
    opts.path.GetOr(cwd)
  }

  /** The naming pattern: the `pattern` option, or the default pattern. */
  function PatternOf(opts: Options): Pattern {
    opts.pattern.GetOr(DefaultPattern)
  }

  /**
   The pattern text shown in the "no files" error: with a truthy environment
   name each node_env group shows the name inside its brackets; a pattern
   without a node_env group, or a falsy name, shows the pattern as it is.
   */
  function ShownPattern(p: Pattern, e: Option<string>): (r: string)
    ensures !Truthy(e) || !HasEnv(p) ==> r == Render(p)
    ensures Truthy(e) && p == DefaultPattern ==> r == ".env" + "[." + e.value + "]" + "[.local]"
  {
    DefaultPatternRenders();
    if Truthy(e) && HasEnv(p) then
      ShowEnvDefault(e.value);
      Render(ShowEnv(p, e.value))
    else Render(p)
  }

  /** `t` occurs in `s` at index `i`. */
  predicate OccursAt(s: string, t: string, i: int) {
    0 <= i <= |s| - |t| && s[i..i + |t|] == t
  }

  /** `t` occurs somewhere in `s`. */
  ghost predicate Contains(s: string, t: string) {
    exists i :: OccursAt(s, t, i)
  }

  /** The "no files" message; it names both the pattern (as shown) and the directory. */
  function NoFilesMessage(p: Pattern, e: Option<string>, dir: string): (r: string)
    ensures Contains(r, ShownPattern(p, e))
    ensures Contains(r, dir)
    ensures !Truthy(e) ==> Contains(r, Render(p))
  {
    var a := "no \".env*\" files matching pattern \"";
    var shown := ShownPattern(p, e);
    var b := "\" in \"";
    var c := "\" dir";
    var msg := a + shown + b + dir + c;
    assert OccursAt(msg, shown, |a|);
    assert OccursAt(msg, dir, |a| + |shown| + |b|);
    msg
  }

  /** `.env` in the working directory, the file `purge_dotenv` unloads. */
  function DotenvPath(dir: string): Path {
    Path(dir, DotenvName)
  }

  /** The purge step: unload `.env` when it exists; its read errors are passed on. */
  function Purge(fs: FileSystem, dir: string, store: Env): (r: Result<Env, Error>)
    ensures !Exists(fs, DotenvPath(dir)) ==> r == Success(store)
    ensures Exists(fs, DotenvPath(dir)) ==> r == Unload(fs, [DotenvPath(dir)], store)
  {
    if Exists(fs, DotenvPath(dir)) then Unload(fs, [DotenvPath(dir)], store) else Success(store)
  }

  /**
   `config(options)` against the filesystem `fs` and the variable store: the
   outcome and the store afterwards. The environment name is taken from the
   store as it was on entry, before any purge.
   */
  function Config(opts: Options, cwd: string, fs: FileSystem, store: Env): (r: (LoadResult, Env))
    ensures !opts.purgeDotenv && r.0.Failed? ==> r.1 == store
    ensures !opts.purgeDotenv ==> forall k :: k in store ==> k in r.1 && r.1[k] == store[k]
    ensures r.0.Parsed? ==> r.0.vars.Keys <= r.1.Keys
  {
    var e := EffectiveNodeEnv(opts, store);
    var dir := Dir(opts, cwd);
    var p := PatternOf(opts);
    var purged := if opts.purgeDotenv then Purge(fs, dir, store) else Success(store);
    if purged.Failure? then (Failed(purged.error), store)
    else
      var files := ListFiles(fs, dir, p, e);
      if files == [] then (Failed(NoFilesFound(NoFilesMessage(p, e, dir))), purged.value)
      else Load(fs, files, purged.value)
  }

  // ---------------------------------------------------------------------------
  // What config returns

  /** A failing purge is reported at once, with the store untouched. */
  lemma ConfigPurgeFails(opts: Options, cwd: string, fs: FileSystem, store: Env)
    requires opts.purgeDotenv
    requires Exists(fs, DotenvPath(Dir(opts, cwd))) && !Readable(fs, DotenvPath(Dir(opts, cwd)))
    ensures Config(opts, cwd, fs, store) == (Failed(ReadFailed(DotenvPath(Dir(opts, cwd)))), store)
  {
    ParseSingle(fs, DotenvPath(Dir(opts, cwd)));
  }

  /** The store `config` loads into: the entry store, purged of `.env`'s values when asked to. */
  function StoreAfterPurge(opts: Options, cwd: string, fs: FileSystem, store: Env): Env {
    if opts.purgeDotenv && Purge(fs, Dir(opts, cwd), store).Success? then Purge(fs, Dir(opts, cwd), store).value
    else store
  }

  /**
   An empty cascade is an error naming the directory and the pattern (with the
   environment name filled in when it is truthy); nothing is loaded.
   */
  lemma ConfigEmptyCascade(opts: Options, cwd: string, fs: FileSystem, store: Env)
    requires !opts.purgeDotenv || Purge(fs, Dir(opts, cwd), store).Success?
    requires ListFiles(fs, Dir(opts, cwd), PatternOf(opts), EffectiveNodeEnv(opts, store)) == []
    ensures Config(opts, cwd, fs, store).0.Failed?
    ensures Config(opts, cwd, fs, store).0.error.NoFilesFound?
    ensures Contains(Config(opts, cwd, fs, store).0.error.message, Dir(opts, cwd))
    ensures Contains(Config(opts, cwd, fs, store).0.error.message,
                     ShownPattern(PatternOf(opts), EffectiveNodeEnv(opts, store)))
    ensures Config(opts, cwd, fs, store).1 == StoreAfterPurge(opts, cwd, fs, store)
  {
  }

  /** A non-empty cascade is handed to `load`, whose result is returned unchanged. */
  lemma ConfigLoadsCascade(opts: Options, cwd: string, fs: FileSystem, store: Env)
    requires !opts.purgeDotenv || Purge(fs, Dir(opts, cwd), store).Success?
    requires ListFiles(fs, Dir(opts, cwd), PatternOf(opts), EffectiveNodeEnv(opts, store)) != []
    ensures Config(opts, cwd, fs, store) ==
      Load(fs, ListFiles(fs, Dir(opts, cwd), PatternOf(opts), EffectiveNodeEnv(opts, store)),
           StoreAfterPurge(opts, cwd, fs, store))
  {
  }

  // ---------------------------------------------------------------------------
  // Worked scenarios, directory "/app"

  const AppDir: string := "/app"

  /** `.env` with A=1 and `.env.local` with A=2, B=3. */
  function TwoFiles(): FileSystem {
    map[Path(AppDir, ".env") := Ok(map["A" := "1"]),
        Path(AppDir, ".env.local") := Ok(map["A" := "2", "B" := "3"])]
  }

  /** Which of the default pattern's candidates exist among the two files. */
  lemma TwoFilesPresent(fs: FileSystem, e: Option<string>)
    requires fs == TwoFiles()
    requires e == None || e == Some("test")
    ensures !Present(fs, AppDir, DefaultPattern, e, Defaults)
    ensures Present(fs, AppDir, DefaultPattern, e, Base)
    ensures Present(fs, AppDir, DefaultPattern, e, Local) <==> e == None
    ensures !Present(fs, AppDir, DefaultPattern, e, NodeEnv)
    ensures !Present(fs, AppDir, DefaultPattern, e, NodeEnvLocal)
  {
    if e == None {
      TwoFilesPresentNoName(fs);
    } else {
      TwoFilesPresentTest(fs, e);
    }
  }

  lemma TwoFilesPresentNoName(fs: FileSystem)
    requires fs == TwoFiles()
    ensures !Present(fs, AppDir, DefaultPattern, None, Defaults)
    ensures Present(fs, AppDir, DefaultPattern, None, Base)
    ensures Present(fs, AppDir, DefaultPattern, None, Local)
    ensures !Present(fs, AppDir, DefaultPattern, None, NodeEnv)
    ensures !Present(fs, AppDir, DefaultPattern, None, NodeEnvLocal)
  {
    DefaultCandidates(AppDir, None);
    NotInTwoFiles(fs, DefaultsName);
  }

  lemma TwoFilesPresentTest(fs: FileSystem, e: Option<string>)
    requires fs == TwoFiles() && e == Some("test")
    ensures !Present(fs, AppDir, DefaultPattern, e, Defaults)
    ensures Present(fs, AppDir, DefaultPattern, e, Base)
    ensures !Present(fs, AppDir, DefaultPattern, e, Local)
    ensures !Present(fs, AppDir, DefaultPattern, e, NodeEnv)
    ensures !Present(fs, AppDir, DefaultPattern, e, NodeEnvLocal)
  {
    DefaultCandidates(AppDir, e);
    NotInTwoFiles(fs, DefaultsName);
    NotInTwoFiles(fs, ".env." + e.value);
    NotInTwoFiles(fs, ".env." + e.value + ".local");
  }

  /** Only the names `.env` and `.env.local`, of four and ten characters, exist in the two-file directory. */
  lemma NotInTwoFiles(fs: FileSystem, name: string)
    requires fs == TwoFiles()
    requires |name| != 4 && |name| != 10
    ensures Path(AppDir, name) !in fs
  {
    assert fs.Keys == {Path(AppDir, ".env"), Path(AppDir, ".env.local")};
  }

  /** The entries of the default pattern's slots over the two files. */
  lemma TwoFilesEntries(fs: FileSystem, e: Option<string>)
    requires fs == TwoFiles()
    requires e == None || e == Some("test")
    ensures Entry(fs, AppDir, DefaultPattern, e, Defaults) == []
    ensures Entry(fs, AppDir, DefaultPattern, e, Base) == [Path(AppDir, ".env")]
    ensures Entry(fs, AppDir, DefaultPattern, e, Local) ==
      if e == None then [Path(AppDir, ".env.local")] else []
    ensures Entry(fs, AppDir, DefaultPattern, e, NodeEnv) == []
    ensures Entry(fs, AppDir, DefaultPattern, e, NodeEnvLocal) == []
  {
    TwoFilesPresent(fs, e);
    DefaultCandidates(AppDir, e);
  }

  /** The default pattern lists `.env` then `.env.local`, and for "test" only `.env`. */
  lemma TwoFilesCascade(fs: FileSystem, e: Option<string>)
    requires fs == TwoFiles()
    requires e == None || e == Some("test")
    ensures ListFiles(fs, AppDir, DefaultPattern, e) ==
      if e == None then [Path(AppDir, ".env"), Path(AppDir, ".env.local")] else [Path(AppDir, ".env")]
  {
    TwoFilesEntries(fs, e);
    var entries := Entry(fs, AppDir, DefaultPattern, e, Defaults) + (Entry(fs, AppDir, DefaultPattern, e, Base)
      + (Entry(fs, AppDir, DefaultPattern, e, Local) + (Entry(fs, AppDir, DefaultPattern, e, NodeEnv)
      + Entry(fs, AppDir, DefaultPattern, e, NodeEnvLocal))));
    assert entries == if e == None then [Path(AppDir, ".env"), Path(AppDir, ".env.local")] else [Path(AppDir, ".env")];
    ListFilesInSlotOrder(fs, AppDir, DefaultPattern, e);
  }

  /** Parsing `.env` then `.env.local`: the later file's A wins, B comes from it alone. */
  lemma TwoFilesParse(fs: FileSystem)
    requires fs == TwoFiles()
    ensures Parse(fs, [Path(AppDir, ".env"), Path(AppDir, ".env.local")]) ==
      Success(map["A" := "2", "B" := "3"])
  {
    var base, local := Path(AppDir, ".env"), Path(AppDir, ".env.local");
    var r := Parse(fs, [base, local]);
    assert AllReadable(fs, [base, local]);
    assert LastDefines(fs, [base, local], 1, "A");
    assert LastDefines(fs, [base, local], 1, "B");
    assert forall k :: k in r.value ==> k == "A" || k == "B" by {
      forall k | k in r.value ensures k == "A" || k == "B" {
        var i :| DefinesAt(fs, [base, local], i, k);
      }
    }
    assert r.value == map["A" := "2", "B" := "3"];
  }

  /**
   With only a `node_env` option and `.env` present in the current directory
   `cwd`, `config` loads the default pattern's cascade, which `.env` makes
   non-empty.
   */
  lemma ConfigDefaultOptions(fs: FileSystem, cwd: string, store: Env, e: Option<string>)
    requires NodeEnvVar !in store
    requires Exists(fs, Path(cwd, DotenvName))
    ensures ListFiles(fs, cwd, DefaultPattern, e) != []
    ensures Config(NoOptions.(nodeEnv := e), cwd, fs, store) ==
      Load(fs, ListFiles(fs, cwd, DefaultPattern, e), store)
  {
    DefaultCandidates(cwd, e);
    assert Present(fs, cwd, DefaultPattern, e, Base);
    assert Base in ListSlots(fs, cwd, DefaultPattern, e);
    var opts := NoOptions.(nodeEnv := e);
    assert EffectiveNodeEnv(opts, store) == e;
    assert Dir(opts, cwd) == cwd && PatternOf(opts) == DefaultPattern;
    ConfigLoadsCascade(opts, cwd, fs, store);
  }

  /** Loading files that parse to `vars` into a store without their keys adds exactly `vars`. */
  lemma LoadFresh(fs: FileSystem, files: seq<Path>, store: Env, vars: Env)
    requires Parse(fs, files) == Success(vars)
    ensures Load(fs, files, store) == (Parsed(vars), vars + store)
  {
  }

  /** Loading into an empty store leaves exactly what the files parse to. */
  lemma LoadIntoEmpty(fs: FileSystem, files: seq<Path>, vars: Env)
    requires Parse(fs, files) == Success(vars)
    ensures Load(fs, files, map[]) == (Parsed(vars), vars)
  {
    LoadFresh(fs, files, map[], vars);
    assert vars + map[] == vars;
  }

  /** No environment name: both files load, the local one winning. */
  lemma ScenarioDefault(fs: FileSystem)
    requires fs == TwoFiles()
    ensures Config(NoOptions, AppDir, fs, map[]) ==
      (Parsed(map["A" := "2", "B" := "3"]), map["A" := "2", "B" := "3"])
  {
    TwoFilesCascade(fs, None);
    TwoFilesParse(fs);
    assert NoOptions.(nodeEnv := None) == NoOptions;
    ConfigDefaultOptions(fs, AppDir, map[], None);
    LoadIntoEmpty(fs, [Path(AppDir, ".env"), Path(AppDir, ".env.local")], map["A" := "2", "B" := "3"]);
  }

  /** For "test" the local file is left out: only A=1 is loaded. */
  lemma ScenarioTest(fs: FileSystem)
    requires fs == TwoFiles()
    ensures Config(NoOptions.(nodeEnv := Some("test")), AppDir, fs, map[]) ==
      (Parsed(map["A" := "1"]), map["A" := "1"])
  {
    var base := Path(AppDir, ".env");
    TwoFilesCascade(fs, Some("test"));
    ParseSingle(fs, base);
    ConfigDefaultOptions(fs, AppDir, map[], Some("test"));
    LoadIntoEmpty(fs, [base], map["A" := "1"]);
  }

  /** A value predefined in the store wins over the file's. */
  lemma ScenarioPredefined()
    ensures
      var fs := map[Path(AppDir, ".env") := Ok(map["A" := "1"])];
      Load(fs, [Path(AppDir, ".env")], map["A" := "shell-value"]) ==
        (Parsed(map["A" := "1"]), map["A" := "shell-value"])
  {
    var fs := map[Path(AppDir, ".env") := Ok(map["A" := "1"])];
    ParseSingle(fs, Path(AppDir, ".env"));
    assert map["A" := "1"] + map["A" := "shell-value"] == map["A" := "shell-value"];
  }

  /** Purging `.env` out of a store holding exactly its A=1 empties the store. */
  lemma TwoFilesPurge(fs: FileSystem, store: Env)
    requires fs == TwoFiles() && store == map["A" := "1"]
    ensures Purge(fs, AppDir, store) == Success(map[])
  {
    var base := Path(AppDir, ".env");
    ParseSingle(fs, base);
    assert Unload(fs, [base], store).value.Keys == {};
  }

  /**
   A store that already holds `.env`'s A=1 (loaded earlier by someone else):
   with purge the stale value is removed and the local file's A=2 applies.
   */
  lemma ScenarioPurge(fs: FileSystem, store: Env)
    requires fs == TwoFiles() && store == map["A" := "1"]
    ensures Config(NoOptions.(purgeDotenv := true), AppDir, fs, store).1 == map["A" := "2", "B" := "3"]
  {
    var files := [Path(AppDir, ".env"), Path(AppDir, ".env.local")];
    var parsed := map["A" := "2", "B" := "3"];
    var purging := NoOptions.(purgeDotenv := true);
    TwoFilesCascade(fs, None);
    TwoFilesParse(fs);
    TwoFilesPurge(fs, store);
    assert EffectiveNodeEnv(purging, store) == None;
    assert StoreAfterPurge(purging, AppDir, fs, store) == map[];
    ConfigLoadsCascade(purging, AppDir, fs, store);
    LoadIntoEmpty(fs, files, parsed);
  }

  /** The stale A=1 overrides the parsed A=2 in the merge. */
  lemma StaleMerge()
    ensures map["A" := "2", "B" := "3"] + map["A" := "1"] == map["A" := "1", "B" := "3"]
  {
  }

  /** The same store without purge: the stale A=1 stays and only B is added. */
  lemma ScenarioNoPurge(fs: FileSystem, store: Env)
    requires fs == TwoFiles() && store == map["A" := "1"]
    ensures Config(NoOptions, AppDir, fs, store).1 == map["A" := "1", "B" := "3"]
  {
    var files := [Path(AppDir, ".env"), Path(AppDir, ".env.local")];
    var parsed := map["A" := "2", "B" := "3"];
    assert Config(NoOptions, AppDir, fs, store) == Load(fs, files, store) by {
      TwoFilesCascade(fs, None);
      assert EffectiveNodeEnv(NoOptions, store) == None;
      ConfigLoadsCascade(NoOptions, AppDir, fs, store);
    }
    assert Load(fs, files, store).1 == parsed + store by {
      TwoFilesParse(fs);
      LoadFresh(fs, files, store, parsed);
    }
    assert parsed + store == map["A" := "1", "B" := "3"] by { StaleMerge(); }
  }
}

=== FILE: env_options.dfy ===
/**
 `env_options(env)`: the options given through environment variables, each
 recognised variable renamed through a fixed table and copied verbatim.

 The projection is stated for any rename table; `EnvTable` is the one the
 repository uses.
 */
module EnvOptions {

  /** A variable-to-option rename table, with its variables in declaration order. */
  datatype Renames = Renames(names: map<string, string>, order: seq<string>)

  /** The order lists exactly the table's variables, and no two variables share an option. */
  predicate ValidRenames(t: Renames) {
    (forall v :: v in t.order ==> v in t.names) &&
    (forall v :: v in t.names ==> v in t.order) &&
    (forall v, w :: v in t.names && w in t.names && t.names[v] == t.names[w] ==> v == w)
  }

  /** The variable-to-option table of `env_options`. */
  const EnvOptionsMap: map<string, string> := map[
    "NODE_ENV" := "node_env",
    "DEFAULT_NODE_ENV" := "default_node_env",
    "DOTENV_FLOW_PATH" := "path",
    "DOTENV_FLOW_ENCODING" := "encoding",
    "DOTENV_FLOW_PURGE_DOTENV" := "purge_dotenv"]

  /** `EnvOptionsMap` with its variables in declaration order. */
  const EnvTable: Renames := Renames(EnvOptionsMap, [
    "NODE_ENV", "DEFAULT_NODE_ENV", "DOTENV_FLOW_PATH", "DOTENV_FLOW_ENCODING",
    "DOTENV_FLOW_PURGE_DOTENV"])

  /** The option names the variables of `vars` that are set in `env` map to. */
  function Renamed(t: Renames, vars: seq<string>, env: map<string, string>): set<string>
    requires forall v :: v in vars ==> v in t.names
  {
    set v | v in vars && v in env :: t.names[v]
  }

  /**
   The `reduce` over the table's variables: each one set in `env` writes its
   value under its option name into `acc`.
   */
  function ProjectInto(t: Renames, vars: seq<string>, env: map<string, string>, acc: map<string, string>)
    : map<string, string>
    requires forall v :: v in vars ==> v in t.names
  {
    if vars == [] then acc
    else
      var v := vars[0];
      ProjectInto(t, vars[1..], env, if v in env then acc[t.names[v] := env[v]] else acc)
  }

  /**
   The reduce adds exactly the option names of the variables set in `env`,
   each with its variable's value, and keeps every other entry of `acc`.
   */
  lemma {:induction false} ProjectIntoSpec(t: Renames, vars: seq<string>, env: map<string, string>, acc: map<string, string>)
    requires ValidRenames(t)
    requires forall v :: v in vars ==> v in t.names
    ensures ProjectInto(t, vars, env, acc).Keys == acc.Keys + Renamed(t, vars, env)
    ensures forall v :: v in vars && v in env ==> ProjectInto(t, vars, env, acc)[t.names[v]] == env[v]
    ensures forall k :: k in acc && k !in Renamed(t, vars, env) ==> ProjectInto(t, vars, env, acc)[k] == acc[k]
  {
    if vars != [] {
      var v := vars[0];
      var acc' := if v in env then acc[t.names[v] := env[v]] else acc;
      var r := ProjectInto(t, vars, env, acc);
      ProjectIntoSpec(t, vars[1..], env, acc');
      assert r == ProjectInto(t, vars[1..], env, acc');
      assert Renamed(t, vars, env) == Renamed(t, vars[1..], env) + (if v in env then {t.names[v]} else {}) by {
        assert forall w :: w in vars <==> w == v || w in vars[1..];
      }
      forall w | w in vars && w in env
        ensures r[t.names[w]] == env[w]
      {
        if w !in vars[1..] {
          assert w == v;
          assert t.names[w] !in Renamed(t, vars[1..], env);
        }
      }
    }
  }

  /** `env_options` against a rename table. */
  function FromEnvWith(t: Renames, env: map<string, string>): (r: map<string, string>)
    requires ValidRenames(t)
    ensures r.Keys == set v | v in t.names && v in env :: t.names[v]
    ensures forall v :: v in t.names && v in env ==> r[t.names[v]] == env[v]
  {
    ProjectIntoSpec(t, t.order, env, map[]);
    assert Renamed(t, t.order, env) == set v | v in t.names && v in env :: t.names[v];
    ProjectInto(t, t.order, env, map[])
  }

  /** `env_options(env)`. */
  function FromEnv(env: map<string, string>): (r: map<string, string>)
    ensures r.Keys == set v | v in EnvOptionsMap && v in env :: EnvOptionsMap[v]
    ensures forall v :: v in EnvOptionsMap && v in env ==> r[EnvOptionsMap[v]] == env[v]
  {
    EnvTableValid();
    FromEnvWith(EnvTable, env)
  }

  // ---------------------------------------------------------------------------
  // Properties

  /** The repository's table is valid: its order lists its variables, and the renames are distinct. */
  lemma EnvTableValid()
    ensures ValidRenames(EnvTable)
  {
    EnvOrderIsKeys();
    EnvRenamesDistinct();
  }

  lemma EnvOrderIsKeys()
    ensures forall v :: v in EnvTable.order <==> v in EnvOptionsMap
  {
  }

  lemma EnvRenamesDistinct()
    ensures forall v, w :: v in EnvOptionsMap && w in EnvOptionsMap && EnvOptionsMap[v] == EnvOptionsMap[w] ==> v == w
  {
  }

  /** Variables outside the table are ignored: the result depends only on the table's variables. */
  lemma OthersIgnored(t: Renames, env1: map<string, string>, env2: map<string, string>)
    requires ValidRenames(t)
    requires forall v :: v in t.names ==> (v in env1 <==> v in env2)
    requires forall v :: v in t.names && v in env1 ==> env1[v] == env2[v]
    ensures FromEnvWith(t, env1) == FromEnvWith(t, env2)
  {
    var r1, r2 := FromEnvWith(t, env1), FromEnvWith(t, env2);
    assert r1.Keys == r2.Keys;
    forall k | k in r1 ensures r1[k] == r2[k] {
      var v :| v in t.names && v in env1 && t.names[v] == k;
    }
  }

  /** An option is produced exactly when the variable renamed to it is set. */
  lemma OptionIffVariable(env: map<string, string>, v: string)
    requires v in EnvOptionsMap
    ensures EnvOptionsMap[v] in FromEnv(env) <==> v in env
  {
    EnvTableValid();
    if EnvOptionsMap[v] in FromEnv(env) {
      var w :| w in EnvOptionsMap && w in env && EnvOptionsMap[w] == EnvOptionsMap[v];
    }
  }

  /** Neither `silent` nor `pattern` can be set through the environment. */
  lemma NoSilentNoPattern(env: map<string, string>)
    ensures "silent" !in FromEnv(env)
    ensures "pattern" !in FromEnv(env)
  {
    assert forall v :: v in EnvOptionsMap ==> EnvOptionsMap[v] != "silent" && EnvOptionsMap[v] != "pattern";
  }

  /** Only the variables set give options: two of the five here. */
  lemma EnvSomeSet(env: map<string, string>)
    requires env == map["DEFAULT_NODE_ENV" := "development", "DOTENV_FLOW_ENCODING" := "latin1"]
    ensures FromEnv(env) == map["default_node_env" := "development", "encoding" := "latin1"]
  {
    var r := FromEnv(env);
    var want := map["default_node_env" := "development", "encoding" := "latin1"];
    assert r.Keys == want.Keys by {
      assert "DEFAULT_NODE_ENV" in EnvOptionsMap && "DOTENV_FLOW_ENCODING" in EnvOptionsMap;
    }
    assert r["default_node_env"] == "development" by {
      assert EnvOptionsMap["DEFAULT_NODE_ENV"] == "default_node_env";
    }
    assert r["encoding"] == "latin1" by {
      assert EnvOptionsMap["DOTENV_FLOW_ENCODING"] == "encoding";
    }
  }

  /** An environment without any of the five variables gives no options. */
  lemma EnvUnrelated(env: map<string, string>)
    requires env == map["PATH" := "/usr/local/bin"]
    ensures FromEnv(env) == map[]
  {
    assert FromEnv(env).Keys == {};
  }
}

=== FILE: files.dfy ===
/**
 The environment the loader runs against: a filesystem of already decoded
 `.env*` files and the process-wide variable store.
 */
module Files {

  /** A string-keyed variable map: a decoded `.env*` file, or the process environment. */
  type Env = map<string, string>

  /**
   A resolved file name. `path.resolve(dir, name)` is kept abstract: the model
   only distinguishes paths by the directory and the name they were built from.
   */
  datatype Path = Path(dir: string, name: string)

  /** What reading an existing file gives: its decoded variables, or an I/O error. */
  datatype Outcome = Ok(vars: Env) | ReadErr

  /** The files that exist, with what reading each of them yields. */
  type FileSystem = map<Path, Outcome>

  /** `fs.existsSync`: a file exists whether or not it can be read. */
  predicate Exists(fs: FileSystem, f: Path) {
    f in fs
  }

  /** A file that exists and whose contents can be read and decoded. */
  predicate Readable(fs: FileSystem, f: Path) {
    f in fs && fs[f].Ok?
  }

  /** The variables a readable file defines. */
  function Vars(fs: FileSystem, f: Path): Env
    requires Readable(fs, f)
  {
    fs[f].vars
  }
}

=== FILE: merge.dfy ===
/**
 `parse`, `load` and `unload`: reading a list of `.env*` files into one
 variable map, and applying it to (or removing it from) the variable store.
 */
module Merge {
  import opened Wrappers
  import opened Files

  /** Why loading failed. */
  datatype Error =
    /** A listed file could not be read (missing, unreadable, or undecodable). */
    | ReadFailed(path: Path)
    /** No file of the cascade exists; the message names the pattern and the directory. */
    | NoFilesFound(message: string)

  /** What `load` returns: exactly one of `{ parsed }` or `{ error }`. */
  datatype LoadResult = Parsed(vars: Env) | Failed(error: Error)

  /** `dotenv.parse(fs.readFileSync(filename))`: reading a missing file fails like any other read. */
  function ReadFile(fs: FileSystem, f: Path): (r: Result<Env, Error>)
    ensures r.Success? <==> Readable(fs, f)
    ensures !Exists(fs, f) ==> r == Failure(ReadFailed(f))
    ensures r.Success? ==> r.value == fs[f].vars
    ensures r.Failure? ==> r.error == ReadFailed(f)
  {
    if Readable(fs, f) then Success(Vars(fs, f)) else Failure(ReadFailed(f))
  }

  /** The `reduce` of `parse`: each file in turn, overwriting what came before. */
  function ParseInto(fs: FileSystem, files: seq<Path>, acc: Env): (r: Result<Env, Error>)
    ensures r.Success? ==> acc.Keys <= r.value.Keys
    ensures r.Failure? ==> exists i :: 0 <= i < |files| && !Readable(fs, files[i]) && r.error == ReadFailed(files[i])
    decreases |files|
  {
    if files == [] then Success(acc)
    else
      match ReadFile(fs, files[0])
      case Failure(e) => Failure(e)
      case Success(m) => ParseInto(fs, files[1..], acc + m)
  }

  predicate AllReadable(fs: FileSystem, files: seq<Path>) {
    forall i :: 0 <= i < |files| ==> Readable(fs, files[i])
  }

  /** Index `j` is the first file of the list that cannot be read. */
  predicate FirstUnreadable(fs: FileSystem, files: seq<Path>, j: int) {
    && 0 <= j < |files|
    && !Readable(fs, files[j])
    && forall i :: 0 <= i < j ==> Readable(fs, files[i])
  }

  /** File `i` of the list is readable and defines `k`. */
  predicate DefinesAt(fs: FileSystem, files: seq<Path>, i: int, k: string) {
    0 <= i < |files| && Readable(fs, files[i]) && k in Vars(fs, files[i])
  }

  /** File `i` is the last file of the list that defines `k`. */
  predicate LastDefines(fs: FileSystem, files: seq<Path>, i: int, k: string) {
    DefinesAt(fs, files, i, k) && forall j :: i < j < |files| ==> !DefinesAt(fs, files, j, k)
  }

  /** The overwrite merge with a starting map, stated file by file. */
  lemma {:induction false} ParseIntoSpec(fs: FileSystem, files: seq<Path>, acc: Env)
    ensures ParseInto(fs, files, acc).Success? <==> AllReadable(fs, files)
    ensures ParseInto(fs, files, acc).Failure? ==>
      exists j :: FirstUnreadable(fs, files, j) && ParseInto(fs, files, acc).error == ReadFailed(files[j])
    ensures ParseInto(fs, files, acc).Success? ==> forall k ::
      k in ParseInto(fs, files, acc).value <==> k in acc || exists i :: DefinesAt(fs, files, i, k)
    ensures ParseInto(fs, files, acc).Success? ==> forall k, i ::
      LastDefines(fs, files, i, k) ==> ParseInto(fs, files, acc).value[k] == Vars(fs, files[i])[k]
    ensures ParseInto(fs, files, acc).Success? ==> forall k ::
      k in acc && (forall i :: !DefinesAt(fs, files, i, k)) ==> ParseInto(fs, files, acc).value[k] == acc[k]
    decreases |files|
  {
    if files == [] {
      return;
    }
    var f := files[0];
    var tail := files[1..];
    if !Readable(fs, f) {
      assert FirstUnreadable(fs, files, 0);
      return;
    }
    var m := Vars(fs, f);
    var acc' := acc + m;
    ParseIntoSpec(fs, tail, acc');
    var r := ParseInto(fs, files, acc);
    assert r == ParseInto(fs, tail, acc');
    forall i | 0 <= i < |tail| ensures tail[i] == files[i + 1] {
    }
    forall k, i | 0 <= i < |tail| ensures DefinesAt(fs, tail, i, k) <==> DefinesAt(fs, files, i + 1, k) {
    }
    assert AllReadable(fs, files) <==> AllReadable(fs, tail) by {
      if AllReadable(fs, tail) {
        forall i | 0 <= i < |files| ensures Readable(fs, files[i]) {
          if i > 0 {
            assert files[i] == tail[i - 1];
          }
        }
      }
    }
    if r.Failure? {
      var j :| FirstUnreadable(fs, tail, j) && r.error == ReadFailed(tail[j]);
      assert FirstUnreadable(fs, files, j + 1);
    } else {
      forall k ensures k in r.value <==> k in acc || exists i :: DefinesAt(fs, files, i, k) {
        if k in m {
          assert DefinesAt(fs, files, 0, k);
        }
        if exists i :: DefinesAt(fs, files, i, k) {
          var i :| DefinesAt(fs, files, i, k);
          if i > 0 {
            assert DefinesAt(fs, tail, i - 1, k);
          }
        }
      }
      forall k, i | LastDefines(fs, files, i, k) ensures r.value[k] == Vars(fs, files[i])[k] {
        if i == 0 {
          forall j | 0 <= j < |tail| ensures !DefinesAt(fs, tail, j, k) {
            assert !DefinesAt(fs, files, j + 1, k);
          }
        } else {
          assert LastDefines(fs, tail, i - 1, k) by {
            forall j | i - 1 < j < |tail| ensures !DefinesAt(fs, tail, j, k) {
              assert !DefinesAt(fs, files, j + 1, k);
            }
          }
        }
      }
      forall k | k in acc && (forall i :: !DefinesAt(fs, files, i, k)) ensures r.value[k] == acc[k] {
        assert !DefinesAt(fs, files, 0, k);
        forall j | 0 <= j < |tail| ensures !DefinesAt(fs, tail, j, k) {
          assert !DefinesAt(fs, files, j + 1, k);
        }
      }
    }
  }

  /**
   `parse(filenames)`: fails exactly when some file cannot be read, naming
   the first such file; otherwise holds every key some file defines, with the
   value from the last file that defines it.
   */
  function Parse(fs: FileSystem, files: seq<Path>): (r: Result<Env, Error>)
    ensures r.Success? <==> AllReadable(fs, files)
    ensures r.Failure? ==> exists j :: FirstUnreadable(fs, files, j) && r.error == ReadFailed(files[j])
    ensures r.Success? ==> forall k :: k in r.value <==> exists i :: DefinesAt(fs, files, i, k)
    ensures r.Success? ==> forall k, i :: LastDefines(fs, files, i, k) ==> r.value[k] == Vars(fs, files[i])[k]
  {
    ParseIntoSpec(fs, files, map[]);
    ParseInto(fs, files, map[])
  }

  /** A single file parses to its own variables. */
  lemma ParseSingle(fs: FileSystem, f: Path)
    ensures Readable(fs, f) ==> Parse(fs, [f]) == Success(Vars(fs, f))
    ensures !Readable(fs, f) ==> Parse(fs, [f]) == Failure(ReadFailed(f))
  {
    if Readable(fs, f) {
      var r := Parse(fs, [f]);
      assert forall k :: k in Vars(fs, f) ==> LastDefines(fs, [f], 0, k);
      assert forall k :: k in r.value <==> k in Vars(fs, f) by {
        forall k ensures k in r.value <==> k in Vars(fs, f) {
          if k in r.value {
            var i :| DefinesAt(fs, [f], i, k);
          }
        }
      }
      forall k | k in r.value ensures r.value[k] == Vars(fs, f)[k] {
        assert LastDefines(fs, [f], 0, k);
      }
      assert r.value == Vars(fs, f);
    } else {
      var j :| FirstUnreadable(fs, [f], j) && Parse(fs, [f]).error == ReadFailed([f][j]);
    }
  }

  /** Two files parsed together: a key both define takes the second file's value. */
  lemma ParseOverwrites(fs: FileSystem, a: Path, b: Path, k: string)
    requires Readable(fs, a) && Readable(fs, b)
    requires k in Vars(fs, a) && k in Vars(fs, b)
    ensures Parse(fs, [a, b]).Success?
    ensures k in Parse(fs, [a, b]).value
    ensures Parse(fs, [a, b]).value[k] == Vars(fs, b)[k]
  {
    assert DefinesAt(fs, [a, b], 1, k);
    assert LastDefines(fs, [a, b], 1, k);
  }

  // ---------------------------------------------------------------------------
  // load

  /**
   The safe merge into the store: keys already in the store keep their value,
   the others are added with the parsed value.
   */
  function SafeMerge(store: Env, parsed: Env): (r: Env)
    ensures r.Keys == store.Keys + parsed.Keys
    ensures forall k :: k in store ==> r[k] == store[k]
    ensures forall k :: k in parsed && k !in store ==> r[k] == parsed[k]
  {
    parsed + store
  }

  /**
   The loop of `load` over the parsed keys, one at a time: the resulting store
   is the safe merge, and `skipped` holds the keys that are reported as
   already defined.
   */
  method ApplyParsed(store: Env, parsed: Env) returns (newStore: Env, skipped: set<string>)
    ensures newStore == SafeMerge(store, parsed)
    ensures skipped == parsed.Keys * store.Keys
  {
    newStore := store;
    skipped := {};
    var todo := parsed.Keys;
    while todo != {}
      invariant todo <= parsed.Keys
      invariant newStore.Keys == store.Keys + (parsed.Keys - todo)
      invariant forall k :: k in store ==> newStore[k] == store[k]
      invariant forall k :: k in parsed.Keys - todo && k !in store ==> newStore[k] == parsed[k]
      invariant skipped == (parsed.Keys - todo) * store.Keys
      decreases todo
    {
      var k :| k in todo;
      if k !in newStore {
        newStore := newStore[k := parsed[k]];
      } else {
        skipped := skipped + {k};
      }
      todo := todo - {k};
    }
  }

  /**
   `load(filenames)`: on a parse failure the error is returned and the store
   is left as it was; otherwise the full parsed map is returned and the store
   gains exactly the parsed keys it did not have.
   */
  function Load(fs: FileSystem, files: seq<Path>, store: Env): (r: (LoadResult, Env))
    ensures r.0.Failed? <==> !AllReadable(fs, files)
    ensures r.0.Failed? ==> r.1 == store
    ensures r.0.Failed? ==> exists j :: FirstUnreadable(fs, files, j) && r.0.error == ReadFailed(files[j])
    ensures r.0.Parsed? ==> r.0.vars == Parse(fs, files).value
    ensures r.0.Parsed? ==> r.1.Keys == store.Keys + r.0.vars.Keys
    ensures r.0.Parsed? ==> forall k :: k in store ==> r.1[k] == store[k]
    ensures r.0.Parsed? ==> forall k :: k in r.0.vars && k !in store ==> r.1[k] == r.0.vars[k]
  {
    match Parse(fs, files)
    case Failure(e) => (Failed(e), store)
    case Success(parsed) => (Parsed(parsed), SafeMerge(store, parsed))
  }

  // ---------------------------------------------------------------------------
  // unload

  /** The keys `unload` removes: stored with exactly the parsed value. */
  function Matching(store: Env, parsed: Env): set<string> {
    set k | k in parsed && k in store && store[k] == parsed[k]
  }

  /**
   `unload(filenames)`: a parse failure propagates; otherwise a key is deleted
   exactly when the store holds it with the parsed value, and every other key
   is untouched.
   */
  function Unload(fs: FileSystem, files: seq<Path>, store: Env): (r: Result<Env, Error>)
    ensures r.Failure? <==> !AllReadable(fs, files)
    ensures r.Failure? ==> r.error == Parse(fs, files).error
    ensures r.Success? ==> forall k ::
      k in r.value <==> k in store && !(k in Parse(fs, files).value && Parse(fs, files).value[k] == store[k])
    ensures r.Success? ==> forall k :: k in r.value ==> r.value[k] == store[k]
  {
    match Parse(fs, files)
    case Failure(e) => Failure(e)
    case Success(parsed) => Success(store - Matching(store, parsed))
  }

  /**
   `unload` after a successful `load` of the same files: keys the store did
   not have before are gone again, and predefined keys survive unless their
   value equals the parsed one, in which case they are deleted too.
   */
  lemma LoadThenUnload(fs: FileSystem, files: seq<Path>, store: Env)
    requires Load(fs, files, store).0.Parsed?
    ensures Unload(fs, files, Load(fs, files, store).1).Success?
    ensures forall k :: k !in store ==> k !in Unload(fs, files, Load(fs, files, store).1).value
    ensures forall k :: k in store ==>
      var parsed := Load(fs, files, store).0.vars;
      var after := Unload(fs, files, Load(fs, files, store).1).value;
      if k in parsed && parsed[k] == store[k] then k !in after
      else k in after && after[k] == store[k]
  {
  }

  /** So `unload` does not always restore the store: a predefined equal value is lost. */
  lemma UnloadIsNotARestore()
    ensures
      var f := Path("/app", ".env");
      var fs := map[f := Ok(map["A" := "1"])];
      var store := map["A" := "1"];
      && Load(fs, [f], store).1 == store
      && Unload(fs, [f], store) == Success(map[])
  {
    var f := Path("/app", ".env");
    var fs := map[f := Ok(map["A" := "1"])];
    var store := map["A" := "1"];
    ParseSingle(fs, f);
    assert Unload(fs, [f], store).value.Keys == {};
  }
}

=== FILE: patterns.dfy ===
/**
 The `.env*` naming-convention pattern and `composeFilename`.

 A pattern is text with two kinds of optional bracketed groups: a local group
 `[<pre>local<post>]` and a node_env group `[<pre>node_env<post>]`. Instead of
 being matched by dotenv-flow's two placeholder regexes, a pattern is kept
 already split into literal text and groups; `Render` turns it back into its
 text.
 */
module Patterns {
  import opened Wrappers

  datatype Segment =
    | Lit(text: string)
    /** `[pre + "local" + post]` */
    | LocalGrp(pre: string, post: string)
    /** `[pre + "node_env" + post]` */
    | EnvGrp(pre: string, post: string)

  type Pattern = seq<Segment>

  /** The reserved default pattern, as text and as segments. */
  const DefaultPatternText: string := ".env[.node_env][.local]"
  const DefaultPattern: Pattern := [Lit(".env"), EnvGrp(".", ""), LocalGrp(".", "")]

  /** JavaScript truthiness of an optional string: present and non-empty. */
  predicate Truthy(e: Option<string>) {
    e.Some? && e.value != ""
  }

  predicate IsWordChar(c: char) {
    'a' <= c <= 'z' || 'A' <= c <= 'Z' || '0' <= c <= '9' || c == '_'
  }

  predicate IsBracket(c: char) {
    c == '[' || c == ']'
  }

  predicate NoBrackets(s: string) {
    forall i :: 0 <= i < |s| ==> !IsBracket(s[i])
  }

  /** Text a regex `\W*` next to the placeholder word can match inside a group. */
  predicate GroupAffix(s: string) {
    forall i :: 0 <= i < |s| ==> !IsWordChar(s[i]) && !IsBracket(s[i])
  }

  predicate WellFormedSegment(s: Segment) {
    match s
    case Lit(t) => NoBrackets(t)
    case LocalGrp(pre, post) => GroupAffix(pre) && GroupAffix(post)
    case EnvGrp(pre, post) => GroupAffix(pre) && GroupAffix(post)
  }

  /**
   A sufficient condition for dotenv-flow's placeholder regexes to split the
   pattern's text into these segments: no brackets outside groups, and only
   non-word, non-bracket characters around the placeholder words. (The
   regexes accept more: `\W*` also matches a bracket, so they read `[[local]`
   as a local group with the prefix `[`.)
   */
  predicate WellFormed(p: Pattern) {
    forall i :: 0 <= i < |p| ==> WellFormedSegment(p[i])
  }

  /** The pattern has a `[…local…]` group. */
  predicate HasLocal(p: Pattern) {
    exists i :: 0 <= i < |p| && p[i].LocalGrp?
  }

  /** The pattern has a `[…node_env…]` group. */
  predicate HasEnv(p: Pattern) {
    exists i :: 0 <= i < |p| && p[i].EnvGrp?
  }

  /** Every segment is literal text. */
  predicate AllLiteral(p: Pattern) {
    forall i :: 0 <= i < |p| ==> p[i].Lit?
  }

  function RenderSegment(s: Segment): string {
    match s
    case Lit(t) => t
    case LocalGrp(pre, post) => "[" + pre + "local" + post + "]"
    case EnvGrp(pre, post) => "[" + pre + "node_env" + post + "]"
  }

  /** The pattern's text. */
  function Render(p: Pattern): string {
    if p == [] then "" else RenderSegment(p[0]) + Render(p[1..])
  }

  /** First pass of `composeFilename`: each local group keeps its inner text or disappears. */
  function ReplaceLocal(p: Pattern, keep: bool): Pattern {
    if p == [] then []
    else
      var s := match p[0]
        case LocalGrp(pre, post) => Lit(if keep then pre + "local" + post else "")
        case _ => p[0];
      [s] + ReplaceLocal(p[1..], keep)
  }

  /** Second pass: each node_env group gets the name substituted, or disappears. */
  function ReplaceEnv(p: Pattern, nodeEnv: Option<string>): Pattern {
    if p == [] then []
    else
      var s := match p[0]
        case EnvGrp(pre, post) => Lit(if Truthy(nodeEnv) then pre + nodeEnv.value + post else "")
        case _ => p[0];
      [s] + ReplaceEnv(p[1..], nodeEnv)
  }

  /**
   `composeFilename(pattern, {local, node_env})`: the local pass, then the
   node_env pass. The name is the segment-by-segment reading of the pattern.
   */
  function Compose(p: Pattern, local: bool, nodeEnv: Option<string>): (r: string)
    ensures r == Pieces(p, local, nodeEnv)
  {
    PassesArePieces(p, local, nodeEnv);
    Render(ReplaceEnv(ReplaceLocal(p, local), nodeEnv))
  }

  /** The two passes, rendered, give the pieces of the segments in order. */
  lemma {:induction false} PassesArePieces(p: Pattern, local: bool, e: Option<string>)
    ensures Render(ReplaceEnv(ReplaceLocal(p, local), e)) == Pieces(p, local, e)
  {
    if p != [] {
      var q := ReplaceLocal(p, local);
      var r := ReplaceEnv(q, e);
      assert q[1..] == ReplaceLocal(p[1..], local);
      assert r[1..] == ReplaceEnv(q[1..], e);
      assert RenderSegment(r[0]) == Piece(p[0], local, e);
      PassesArePieces(p[1..], local, e);
    }
  }

  /**
   The local pass is a global replace: every local group becomes literal
   text, its inner text with `keep` and nothing without, and every other
   segment stays where it is.
   */
  lemma {:induction false} ReplaceLocalEach(p: Pattern, keep: bool)
    ensures |ReplaceLocal(p, keep)| == |p|
    ensures forall i :: 0 <= i < |p| && p[i].LocalGrp? ==>
      ReplaceLocal(p, keep)[i] == Lit(if keep then p[i].pre + "local" + p[i].post else "")
    ensures forall i :: 0 <= i < |p| && !p[i].LocalGrp? ==> ReplaceLocal(p, keep)[i] == p[i]
  {
    if p != [] {
      ReplaceLocalEach(p[1..], keep);
      var r := ReplaceLocal(p, keep);
      assert forall i :: 0 < i < |p| ==> r[i] == ReplaceLocal(p[1..], keep)[i - 1] && p[i] == p[1..][i - 1];
    }
  }

  /**
   The node_env pass is a global replace: every node_env group becomes
   literal text, the name between its prefix and suffix for a truthy name and
   nothing otherwise, and every other segment stays where it is.
   */
  lemma {:induction false} ReplaceEnvEach(p: Pattern, e: Option<string>)
    ensures |ReplaceEnv(p, e)| == |p|
    ensures forall i :: 0 <= i < |p| && p[i].EnvGrp? ==>
      ReplaceEnv(p, e)[i] == Lit(if Truthy(e) then p[i].pre + e.value + p[i].post else "")
    ensures forall i :: 0 <= i < |p| && !p[i].EnvGrp? ==> ReplaceEnv(p, e)[i] == p[i]
  {
    if p != [] {
      ReplaceEnvEach(p[1..], e);
      var r := ReplaceEnv(p, e);
      assert forall i :: 0 < i < |p| ==> r[i] == ReplaceEnv(p[1..], e)[i - 1] && p[i] == p[1..][i - 1];
    }
  }

  /**
   What one segment contributes to a composed filename, read straight off the
   description of the placeholders (the reference for `Compose`).
   */
  function Piece(s: Segment, local: bool, nodeEnv: Option<string>): string {
    match s
    case Lit(t) => t
    case LocalGrp(pre, post) => if local then pre + "local" + post else ""
    case EnvGrp(pre, post) => if Truthy(nodeEnv) then pre + nodeEnv.value + post else ""
  }

  /** The pieces of all segments, in order. */
  function Pieces(p: Pattern, local: bool, nodeEnv: Option<string>): string {
    if p == [] then "" else Piece(p[0], local, nodeEnv) + Pieces(p[1..], local, nodeEnv)
  }

  /**
   The pattern shown in the "no files" error: each node_env group keeps its
   brackets and has the environment name in place of the word `node_env`.
   */
  function ShowEnv(p: Pattern, name: string): Pattern {
    if p == [] then []
    else
      var s := match p[0]
        case EnvGrp(pre, post) => Lit("[" + pre + name + post + "]")
        case _ => p[0];
      [s] + ShowEnv(p[1..], name)
  }

  // ---------------------------------------------------------------------------
  // Rendering and the two passes distribute over concatenation

  lemma {:induction false} RenderAppend(p: Pattern, q: Pattern)
    ensures Render(p + q) == Render(p) + Render(q)
  {
    if p == [] {
      assert p + q == q;
    } else {
      assert (p + q)[1..] == p[1..] + q;
      RenderAppend(p[1..], q);
    }
  }

  lemma {:induction false} ReplaceLocalAppend(p: Pattern, q: Pattern, keep: bool)
    ensures ReplaceLocal(p + q, keep) == ReplaceLocal(p, keep) + ReplaceLocal(q, keep)
  {
    if p == [] {
      assert p + q == q;
    } else {
      assert (p + q)[1..] == p[1..] + q;
      ReplaceLocalAppend(p[1..], q, keep);
    }
  }

  lemma {:induction false} ReplaceEnvAppend(p: Pattern, q: Pattern, e: Option<string>)
    ensures ReplaceEnv(p + q, e) == ReplaceEnv(p, e) + ReplaceEnv(q, e)
  {
    if p == [] {
      assert p + q == q;
    } else {
      assert (p + q)[1..] == p[1..] + q;
      ReplaceEnvAppend(p[1..], q, e);
    }
  }

  // ---------------------------------------------------------------------------
  // composeFilename, segment by segment

  /** Composing a concatenation composes each part. */
  lemma ComposeAppend(p: Pattern, q: Pattern, local: bool, e: Option<string>)
    ensures Compose(p + q, local, e) == Compose(p, local, e) + Compose(q, local, e)
  {
    ReplaceLocalAppend(p, q, local);
    ReplaceEnvAppend(ReplaceLocal(p, local), ReplaceLocal(q, local), e);
    RenderAppend(ReplaceEnv(ReplaceLocal(p, local), e), ReplaceEnv(ReplaceLocal(q, local), e));
  }

  /**
   What each segment composes to: literal text is kept; a local group becomes
   its inner text with `local` and vanishes without; a node_env group becomes
   prefix + name + suffix for a truthy name and vanishes otherwise.
   */
  lemma ComposeCons(s: Segment, p: Pattern, local: bool, e: Option<string>)
    ensures Compose([s] + p, local, e) == Piece(s, local, e) + Compose(p, local, e)
    ensures s.Lit? ==> Compose([s] + p, local, e) == s.text + Compose(p, local, e)
    ensures s.LocalGrp? ==>
      Compose([s] + p, local, e) == (if local then s.pre + "local" + s.post else "") + Compose(p, local, e)
    ensures s.EnvGrp? ==>
      Compose([s] + p, local, e) == (if Truthy(e) then s.pre + e.value + s.post else "") + Compose(p, local, e)
  {
    ComposeAppend([s], p, local, e);
  }

  /** With no options every group is removed and only the literal text is left. */
  lemma {:induction false} ComposeBare(p: Pattern)
    ensures Compose(p, false, None) == Render(Literals(p))
  {
    if p != [] {
      ComposeCons(p[0], p[1..], false, None);
      assert p == [p[0]] + p[1..];
      ComposeBare(p[1..]);
      var head := if p[0].Lit? then [p[0]] else [];
      RenderAppend(head, Literals(p[1..]));
      if p[0].Lit? {
        assert Render(head) == p[0].text + Render([]);
      }
    }
  }

  /** The literal segments of a pattern, in order. */
  function Literals(p: Pattern): Pattern {
    if p == [] then []
    else (if p[0].Lit? then [p[0]] else []) + Literals(p[1..])
  }

  /** A pattern without placeholder groups composes to its own text, whatever the options. */
  lemma {:induction false} ComposeWithoutGroups(p: Pattern, local: bool, e: Option<string>)
    requires !HasLocal(p) && !HasEnv(p)
    ensures Compose(p, local, e) == Render(p)
  {
    if p != [] {
      assert !p[0].LocalGrp? && !p[0].EnvGrp?;
      assert !HasLocal(p[1..]) && !HasEnv(p[1..]) by {
        forall i | 0 <= i < |p[1..]| ensures !p[1..][i].LocalGrp? && !p[1..][i].EnvGrp? {
          assert p[1..][i] == p[i + 1];
        }
      }
      ComposeCons(p[0], p[1..], local, e);
      assert p == [p[0]] + p[1..];
      ComposeWithoutGroups(p[1..], local, e);
    }
  }

  /** Both passes rewrite every occurrence: what is rendered at the end is literal text only. */
  lemma {:induction false} ComposeRewritesEveryGroup(p: Pattern, local: bool, e: Option<string>)
    ensures |ReplaceEnv(ReplaceLocal(p, local), e)| == |p|
    ensures AllLiteral(ReplaceEnv(ReplaceLocal(p, local), e))
  {
    if p != [] {
      ComposeRewritesEveryGroup(p[1..], local, e);
      var q := ReplaceEnv(ReplaceLocal(p, local), e);
      var tail := ReplaceEnv(ReplaceLocal(p[1..], local), e);
      assert q[1..] == tail;
      forall i | 0 <= i < |q| ensures q[i].Lit? {
        if i > 0 {
          assert q[i] == tail[i - 1];
        }
      }
    }
  }

  lemma NoBracketsAppend(a: string, b: string)
    requires NoBrackets(a) && NoBrackets(b)
    ensures NoBrackets(a + b)
  {
    forall i | 0 <= i < |a + b| ensures !IsBracket((a + b)[i]) {
      if i < |a| {
        assert (a + b)[i] == a[i];
      } else {
        assert (a + b)[i] == b[i - |a|];
      }
    }
  }

  /**
   The composed filename of a well-formed pattern is plain text: no bracket is
   left, provided the environment name brings none in.
   */
  lemma {:induction false} ComposeNoBrackets(p: Pattern, local: bool, e: Option<string>)
    requires WellFormed(p)
    requires e.Some? ==> NoBrackets(e.value)
    ensures NoBrackets(Compose(p, local, e))
  {
    if p != [] {
      assert WellFormed(p[1..]) by {
        forall i | 0 <= i < |p[1..]| ensures WellFormedSegment(p[1..][i]) {
          assert p[1..][i] == p[i + 1];
        }
      }
      ComposeNoBrackets(p[1..], local, e);
      ComposeCons(p[0], p[1..], local, e);
      assert p == [p[0]] + p[1..];
      assert WellFormedSegment(p[0]);
      match p[0]
      case Lit(t) =>
        NoBracketsAppend(t, Compose(p[1..], local, e));
      case LocalGrp(pre, post) =>
        assert NoBrackets(pre) && NoBrackets(post);
        NoBracketsAppend(pre, "local");
        NoBracketsAppend(pre + "local", post);
        var head := if local then pre + "local" + post else "";
        NoBracketsAppend(head, Compose(p[1..], local, e));
      case EnvGrp(pre, post) =>
        assert NoBrackets(pre) && NoBrackets(post);
        if Truthy(e) {
          NoBracketsAppend(pre, e.value);
          NoBracketsAppend(pre + e.value, post);
        }
        var head := if Truthy(e) then pre + e.value + post else "";
        NoBracketsAppend(head, Compose(p[1..], local, e));
    }
  }

  /** Splits a pattern around one of its segments. */
  lemma ComposeAround(p: Pattern, i: nat, local: bool, e: Option<string>)
    requires i < |p|
    ensures Compose(p, local, e) ==
      Compose(p[..i], local, e) + Compose([p[i]] + p[i + 1..], local, e)
  {
    assert p == p[..i] + ([p[i]] + p[i + 1..]);
    ComposeAppend(p[..i], [p[i]] + p[i + 1..], local, e);
  }

  /** With `local` set, a pattern with a local group never composes to the empty name. */
  lemma ComposeLocalNonEmpty(p: Pattern, e: Option<string>)
    requires HasLocal(p)
    ensures |Compose(p, true, e)| >= |"local"|
  {
    var i :| 0 <= i < |p| && p[i].LocalGrp?;
    ComposeAround(p, i, true, e);
    ComposeCons(p[i], p[i + 1..], true, e);
  }

  /** With a truthy name, a pattern with a node_env group never composes to the empty name. */
  lemma ComposeEnvNonEmpty(p: Pattern, local: bool, e: Option<string>)
    requires HasEnv(p) && Truthy(e)
    ensures |Compose(p, local, e)| >= |e.value|
  {
    var i :| 0 <= i < |p| && p[i].EnvGrp?;
    ComposeAround(p, i, local, e);
    ComposeCons(p[i], p[i + 1..], local, e);
  }

  /** The nested-directory pattern `.env/[node_env/].env[.node_env][.local]`. */
  const NestedPattern: Pattern := [Lit(".env/"), EnvGrp("", "/"), Lit(".env"), EnvGrp(".", ""), LocalGrp(".", "")]

  lemma ComposeNested(local: bool, e: Option<string>)
    ensures Compose(NestedPattern, local, e) ==
      ".env/" + ((if Truthy(e) then e.value + "/" else "") + (".env"
      + ((if Truthy(e) then "." + e.value else "") + ((if local then ".local" else "") + ""))))
  {
    var s0, s1, s2, s3, s4 := Lit(".env/"), EnvGrp("", "/"), Lit(".env"), EnvGrp(".", ""), LocalGrp(".", "");
    NestedPieces(local, e);
    assert Piece(s1, local, e) == if Truthy(e) then e.value + "/" else "" by {
      if Truthy(e) {
        assert "" + e.value + "/" == e.value + "/";
      }
    }
    assert Piece(s3, local, e) == if Truthy(e) then "." + e.value else "" by {
      if Truthy(e) {
        assert "." + e.value + "" == "." + e.value;
      }
    }
    assert Piece(s4, local, e) == if local then ".local" else "" by {
      DotLocalText();
    }
  }

  /** The text a `[.local]` group keeps. */
  lemma DotLocalText()
    ensures "." + "local" + "" == ".local"
  {
  }

  /** The nested-directory pattern's pieces, one per segment. */
  lemma NestedPieces(local: bool, e: Option<string>)
    ensures Pieces(NestedPattern, local, e) ==
      Piece(Lit(".env/"), local, e) + (Piece(EnvGrp("", "/"), local, e) + (Piece(Lit(".env"), local, e)
      + (Piece(EnvGrp(".", ""), local, e) + (Piece(LocalGrp(".", ""), local, e) + ""))))
  {
    var s0, s1, s2, s3, s4 := Lit(".env/"), EnvGrp("", "/"), Lit(".env"), EnvGrp(".", ""), LocalGrp(".", "");
    assert NestedPattern == [s0, s1, s2, s3, s4];
    assert [s0, s1, s2, s3, s4][1..] == [s1, s2, s3, s4];
    assert [s1, s2, s3, s4][1..] == [s2, s3, s4];
    assert [s2, s3, s4][1..] == [s3, s4];
    assert [s3, s4][1..] == [s4];
    assert [s4][1..] == [];
    assert Pieces([s4], local, e) == Piece(s4, local, e) + "";
    assert Pieces([s3, s4], local, e) == Piece(s3, local, e) + Pieces([s4], local, e);
    assert Pieces([s2, s3, s4], local, e) == Piece(s2, local, e) + Pieces([s3, s4], local, e);
    assert Pieces([s1, s2, s3, s4], local, e) == Piece(s1, local, e) + Pieces([s2, s3, s4], local, e);
  }

  /** The text of the nested-directory pattern. */
  lemma NestedPatternRenders()
    ensures Render(NestedPattern) == ".env/[node_env/].env[.node_env][.local]"
  {
    var s0, s1, s2, s3, s4 := Lit(".env/"), EnvGrp("", "/"), Lit(".env"), EnvGrp(".", ""), LocalGrp(".", "");
    assert NestedPattern == [s0, s1, s2, s3, s4];
    assert [s0, s1, s2, s3, s4][1..] == [s1, s2, s3, s4];
    assert [s1, s2, s3, s4][1..] == [s2, s3, s4];
    assert [s2, s3, s4][1..] == [s3, s4];
    assert [s3, s4][1..] == [s4];
    assert [s4][1..] == [];
    assert RenderSegment(s1) == "[node_env/]";
    assert RenderSegment(s3) == "[.node_env]";
    assert RenderSegment(s4) == "[.local]";
    assert Render([s4]) == "[.local]" + "";
    assert Render([s3, s4]) == "[.node_env]" + Render([s4]);
    assert Render([s2, s3, s4]) == ".env" + Render([s3, s4]);
    assert Render([s1, s2, s3, s4]) == "[node_env/]" + Render([s2, s3, s4]);
    assert Render(NestedPattern) == ".env/" + Render([s1, s2, s3, s4]);
    NestedText();
  }

  lemma NestedText()
    ensures ".env/" + ("[node_env/]" + (".env" + ("[.node_env]" + ("[.local]" + ""))))
      == ".env/[node_env/].env[.node_env][.local]"
  {
  }

  /** The nested-directory names for the environment `development`. */
  lemma NestedDevelopment(d: string)
    requires d == "development"
    ensures Compose(NestedPattern, true, Some(d)) == ".env/development/.env.development.local"
    ensures Compose(NestedPattern, false, Some(d)) == ".env/development/.env.development"
  {
    ComposeNested(true, Some(d));
    ComposeNested(false, Some(d));
    NestedNameBoth(d);
    NestedNameEnv(d);
  }

  /** The nested-directory names with no environment name. */
  lemma NestedNoName(e: Option<string>)
    requires e == None
    ensures Compose(NestedPattern, true, e) == ".env/.env.local"
    ensures Compose(NestedPattern, false, e) == ".env/.env"
  {
    ComposeNested(true, e);
    ComposeNested(false, e);
    NestedNameLocal();
    NestedNameBare();
  }

  /** The four nested-directory names, spelled out one per lemma. */
  lemma NestedNameBoth(d: string)
    requires d == "development"
    ensures ".env/" + ((d + "/") + (".env" + (("." + d) + (".local" + "")))) == ".env/development/.env.development.local"
  {
  }

  lemma NestedNameEnv(d: string)
    requires d == "development"
    ensures ".env/" + ((d + "/") + (".env" + (("." + d) + ("" + "")))) == ".env/development/.env.development"
  {
  }

  lemma NestedNameLocal()
    ensures ".env/" + ("" + (".env" + ("" + (".local" + "")))) == ".env/.env.local"
  {
  }

  lemma NestedNameBare()
    ensures ".env/" + ("" + (".env" + ("" + ("" + "")))) == ".env/.env"
  {
  }

  /**
   The nested-directory example: `.env/[node_env/].env[.node_env][.local]`
   composed with and without each option.
   */
  lemma ComposeNestedExample()
    ensures Render(NestedPattern) == ".env/[node_env/].env[.node_env][.local]"
    ensures Compose(NestedPattern, true, Some("development")) == ".env/development/.env.development.local"
    ensures Compose(NestedPattern, false, Some("development")) == ".env/development/.env.development"
    ensures Compose(NestedPattern, true, None) == ".env/.env.local"
    ensures Compose(NestedPattern, false, None) == ".env/.env"
  {
    NestedPatternRenders();
    NestedDevelopment("development");
    NestedNoName(None);
  }

  /** The names the default pattern composes to: `.env`, `.env.local`, `.env.E`, `.env.E.local`. */
  lemma ComposeDefault(local: bool, e: Option<string>)
    ensures Compose(DefaultPattern, local, e) ==
      ".env" + ((if Truthy(e) then "." + e.value else "") + ((if local then ".local" else "") + ""))
  {
    var s0, s1, s2 := Lit(".env"), EnvGrp(".", ""), LocalGrp(".", "");
    assert DefaultPattern == [s0, s1, s2];
    assert [s0, s1, s2][1..] == [s1, s2];
    assert [s1, s2][1..] == [s2];
    assert [s2][1..] == [];
    assert Pieces([s2], local, e) == Piece(s2, local, e) + "";
    assert Pieces([s1, s2], local, e) == Piece(s1, local, e) + Pieces([s2], local, e);
    assert Pieces([s0, s1, s2], local, e) == Piece(s0, local, e) + Pieces([s1, s2], local, e);
    assert Piece(s1, local, e) == if Truthy(e) then "." + e.value else "" by {
      if Truthy(e) {
        assert "." + e.value + "" == "." + e.value;
      }
    }
    assert Piece(s2, local, e) == if local then ".local" else "" by {
      DotLocalText();
    }
  }

  lemma DefaultNameText(d: string)
    ensures ".env" + ("" + ("" + "")) == ".env"
    ensures ".env" + ("" + (".local" + "")) == ".env.local"
    ensures ".env" + (("." + d) + ("" + "")) == ".env." + d
    ensures ".env" + (("." + d) + (".local" + "")) == ".env." + d + ".local"
  {
  }

  /** The default pattern's names, spelled out. */
  lemma ComposeDefaultNames(d: string)
    requires d != ""
    ensures Compose(DefaultPattern, false, None) == ".env"
    ensures Compose(DefaultPattern, true, None) == ".env.local"
    ensures Compose(DefaultPattern, false, Some(d)) == ".env." + d
    ensures Compose(DefaultPattern, true, Some(d)) == ".env." + d + ".local"
  {
    DefaultNameText(d);
    ComposeDefault(false, None);
    ComposeDefault(true, None);
    ComposeDefault(false, Some(d));
    ComposeDefault(true, Some(d));
  }

  /** The default pattern's segments render to its text. */
  lemma DefaultPatternRenders()
    ensures Render(DefaultPattern) == DefaultPatternText
    ensures HasLocal(DefaultPattern) && HasEnv(DefaultPattern)
  {
    var s0, s1, s2 := Lit(".env"), EnvGrp(".", ""), LocalGrp(".", "");
    assert DefaultPattern == [s0, s1, s2];
    assert DefaultPattern[2].LocalGrp? && DefaultPattern[1].EnvGrp?;
    assert [s0, s1, s2][1..] == [s1, s2];
    assert [s1, s2][1..] == [s2];
    assert [s2][1..] == [];
    assert RenderSegment(s1) == "[.node_env]";
    assert RenderSegment(s2) == "[.local]";
    assert Render([s2]) == "[.local]" + "";
    assert Render([s1, s2]) == "[.node_env]" + Render([s2]);
    assert Render(DefaultPattern) == ".env" + Render([s1, s2]);
    DefaultText();
  }

  lemma DefaultText()
    ensures ".env" + ("[.node_env]" + ("[.local]" + "")) == DefaultPatternText
  {
  }

  /** The error-message form of a pattern keeps its text outside node_env groups. */
  lemma {:induction false} ShowEnvWithoutEnvGroup(p: Pattern, name: string)
    requires !HasEnv(p)
    ensures Render(ShowEnv(p, name)) == Render(p)
  {
    if p != [] {
      assert !p[0].EnvGrp?;
      assert !HasEnv(p[1..]) by {
        forall i | 0 <= i < |p[1..]| ensures !p[1..][i].EnvGrp? {
          assert p[1..][i] == p[i + 1];
        }
      }
      ShowEnvWithoutEnvGroup(p[1..], name);
    }
  }

  /** `.env[.node_env][.local]` is shown as `.env[.E][.local]` for a name E. */
  lemma ShowEnvDefault(name: string)
    ensures Render(ShowEnv(DefaultPattern, name)) == ".env" + "[." + name + "]" + "[.local]"
  {
    var s0, s1, s2 := Lit(".env"), EnvGrp(".", ""), LocalGrp(".", "");
    var r1 := Lit("[" + "." + name + "" + "]");
    var p := DefaultPattern;
    assert p == [s0, s1, s2] && p[1..] == [s1, s2] && [s1, s2][1..] == [s2] && [s2][1..] == [];
    assert ShowEnv([s2], name) == [s2];
    assert ShowEnv([s1, s2], name) == [r1] + [s2];
    assert ShowEnv(p, name) == [s0] + [r1, s2];
    var q := [s0, r1, s2];
    assert q[1..] == [r1, s2] && q[1..][1..] == [s2] && q[1..][1..][1..] == [];
    assert RenderSegment(s2) == "[.local]";
    assert Render([s2]) == "[.local]" + Render([]);
    assert Render([r1, s2]) == r1.text + Render([s2]);
    assert Render(q) == ".env" + Render([r1, s2]);
    var x := "[." + name + "]";
    assert r1.text == x;
    assert Render(q) == ".env" + (x + ("[.local]" + ""));
    assert x + ("[.local]" + "") == x + "[.local]";
    assert ".env" + (x + "[.local]") == (".env" + x) + "[.local]";
    assert ".env" + x == ".env" + "[." + name + "]";
  }
}

=== FILE: replacement.dfy ===
/**
 The node_env pass of `composeFilename` and the pattern shown in the "no
 files" error as the code writes them: through `String.prototype.replace` with
 a replacement template that has the environment name spliced into it
 (lib/dotenv-flow.js:31 and :229). The template language of `replace`
 (GetSubstitution in the ECMAScript specification, ECMA-262) gives `$`
 sequences in the name a meaning of their own.

 For a name without `$` this is exactly `Patterns.Compose` and
 `Patterns.ShowEnv`; for a name with `$` it is not, and the model uses the
 verbatim insertion `Patterns.Compose` states.
 */
module Replacement {
  import opened Wrappers
  import opened Patterns

  /**
   What one match of a regex exposes to a replacement template: the matched
   text, the capture groups, and the input text before and after the match.
   */
  datatype Match = Match(text: string, groups: seq<string>, before: string, after: string)

  predicate IsDigit(c: char) {
    '0' <= c <= '9'
  }

  function DigitValue(c: char): nat
    requires IsDigit(c)
  {
    (c as int) - ('0' as int)
  }

  /** One token of a template: its replacement text and how many characters it takes. */
  datatype Token = Token(out: string, width: nat)

  /**
   The token at the head of a non-empty template: `$$` is `$`, `$&` the
   match, `` $` `` the text before it, `$'` the text after it, and `$n` / `$nn`
   capture group n. A two-digit reference beyond the groups is read as one
   digit followed by a literal digit, and a reference to no group (`$0`,
   `$00`, `$3` with two groups) stays as written. Any other character,
   including any other `$`, is itself.
   */
  function Head(t: string, m: Match): (r: Token)
    requires t != []
    ensures 1 <= r.width <= |t|
  {
    if t[0] != '$' || |t| == 1 then Token([t[0]], 1)
    else if t[1] == '$' then Token("$", 2)
    else if t[1] == '&' then Token(m.text, 2)
    else if t[1] == '`' then Token(m.before, 2)
    else if t[1] == '\'' then Token(m.after, 2)
    else if IsDigit(t[1]) then
      var two := |t| >= 3 && IsDigit(t[2]) && 10 * DigitValue(t[1]) + DigitValue(t[2]) <= |m.groups|;
      var width := if two then 3 else 2;
      var index := if two then 10 * DigitValue(t[1]) + DigitValue(t[2]) else DigitValue(t[1]);
      Token(if 1 <= index <= |m.groups| then m.groups[index - 1] else t[..width], width)
    else Token("$", 1)
  }

  /** The replacement text a template gives for one match, token by token. */
  function Expand(t: string, m: Match): string
    decreases |t|
  {
    if t == [] then ""
    else
      var h := Head(t, m);
      h.out + Expand(t[h.width..], m)
  }

  /**
   A global `replace` of the node_env placeholder regex with `template`, over
   the text of `q`: every node_env group is one match, whose groups are the
   text around the word `node_env`. `before` is the text of the input in
   front of `q`.
   */
  function ReplaceEnvGroups(q: Pattern, template: string, before: string): string
    decreases |q|
  {
    if q == [] then ""
    else
      var text := RenderSegment(q[0]);
      var out := match q[0]
        case EnvGrp(pre, post) => Expand(template, Match(text, [pre, post], before, Render(q[1..])))
        case _ => text;
      out + ReplaceEnvGroups(q[1..], template, before + text)
  }

  /** The template of the node_env pass: `$1<name>$2`, or nothing for a falsy name. */
  function EnvTemplate(nodeEnv: Option<string>): string {
    if Truthy(nodeEnv) then "$1" + (nodeEnv.value + "$2") else ""
  }

  /** The template of the "no files" error: `[$1<name>$2]`. */
  function ShowTemplate(name: string): string {
    "[" + ("$1" + (name + ("$2" + "]")))
  }

  /**
   `composeFilename` as written: the local pass, then the node_env replace()
   with its template. For a falsy name, or a name without `$`, it is the name
   `Patterns.Compose` gives.
   */
  function ComposeAsWritten(p: Pattern, local: bool, nodeEnv: Option<string>): (r: string)
    ensures !Truthy(nodeEnv) || '$' !in nodeEnv.value ==> r == Compose(p, local, nodeEnv)
  {
    var q := ReplaceLocal(p, local);
    assert !Truthy(nodeEnv) || '$' !in nodeEnv.value ==>
      ReplaceEnvGroups(q, EnvTemplate(nodeEnv), "") == Render(ReplaceEnv(q, nodeEnv)) by {
      if !Truthy(nodeEnv) || '$' !in nodeEnv.value {
        ReplaceEnvGroupsAgrees(q, nodeEnv, "");
      }
    }
    ReplaceEnvGroups(q, EnvTemplate(nodeEnv), "")
  }

  /**
   The pattern shown in the "no files" error as written. For a name without
   `$` it is the pattern `ShowEnv` shows.
   */
  function ShownAsWritten(p: Pattern, name: string): (r: string)
    ensures '$' !in name ==> r == Render(ShowEnv(p, name))
  {
    assert '$' !in name ==> ReplaceEnvGroups(p, ShowTemplate(name), "") == Render(ShowEnv(p, name)) by {
      if '$' !in name {
        ShownGroupsAgree(p, name, "");
      }
    }
    ReplaceEnvGroups(p, ShowTemplate(name), "")
  }

  // ---------------------------------------------------------------------------
  // Templates without `$` sequences in the name

  /** Text without `$` is copied unchanged. */
  lemma {:induction false} ExpandPlain(s: string, t: string, m: Match)
    requires '$' !in s
    ensures Expand(s + t, m) == s + Expand(t, m)
  {
    if s == [] {
      assert s + t == t;
    } else {
      assert s[0] in s;
      assert (s + t)[0] == s[0] && (s + t)[1..] == s[1..] + t;
      assert Head(s + t, m) == Token([s[0]], 1);
      assert Expand(s + t, m) == [s[0]] + Expand(s[1..] + t, m);
      ExpandPlain(s[1..], t, m);
      var e := Expand(t, m);
      assert [s[0]] + (s[1..] + e) == ([s[0]] + s[1..]) + e;
      assert s == [s[0]] + s[1..];
    }
  }

  /** With two groups, `$1` and `$2` are group references whatever follows them. */
  lemma GroupRef(d: char, t: string, m: Match)
    requires d == '1' || d == '2'
    requires |m.groups| == 2
    ensures Expand(['$', d] + t, m) == m.groups[DigitValue(d) - 1] + Expand(t, m)
  {
    var u := ['$', d] + t;
    assert u[0] == '$' && u[1] == d && u[2..] == t;
    if |t| > 0 && IsDigit(t[0]) {
      assert u[2] == t[0];
      assert 10 * DigitValue(d) + DigitValue(t[0]) > 2;
    }
    assert Head(u, m) == Token(m.groups[DigitValue(d) - 1], 2);
  }

  /** `$&` is the matched text whatever follows it. */
  lemma MatchRef(t: string, m: Match)
    ensures Expand(['$', '&'] + t, m) == m.text + Expand(t, m)
  {
    var u := ['$', '&'] + t;
    assert u[0] == '$' && u[1] == '&' && u[2..] == t;
    assert Head(u, m) == Token(m.text, 2);
  }

  /** `$'` is the text after the match whatever follows it. */
  lemma AfterRef(t: string, m: Match)
    ensures Expand(['$', '\''] + t, m) == m.after + Expand(t, m)
  {
    var u := ['$', '\''] + t;
    assert u[0] == '$' && u[1] == '\'' && u[2..] == t;
    assert Head(u, m) == Token(m.after, 2);
  }

  /** A single character other than `$` is itself. */
  lemma ExpandChar(c: char, m: Match)
    requires c != '$'
    ensures Expand([c], m) == [c]
  {
    assert Head([c], m) == Token([c], 1);
    assert [c][1..] == [];
  }

  /** The node_env pass's template with a `$`-free name gives prefix, name and suffix. */
  lemma EnvTemplatePlain(name: string, m: Match)
    requires name != "" && '$' !in name
    requires |m.groups| == 2
    ensures Expand(EnvTemplate(Some(name)), m) == m.groups[0] + name + m.groups[1]
  {
    var g0, g1 := m.groups[0], m.groups[1];
    GroupRef('2', "", m);
    assert Expand("$2", m) == g1 by {
      assert "$2" == ['$', '2'] + "";
    }
    ExpandPlain(name, "$2", m);
    GroupRef('1', name + "$2", m);
    assert Expand(EnvTemplate(Some(name)), m) == g0 + (name + g1);
  }

  /** The error message's template with a `$`-free name keeps the brackets. */
  lemma ShowTemplatePlain(name: string, m: Match)
    requires '$' !in name
    requires |m.groups| == 2
    ensures Expand(ShowTemplate(name), m) == "[" + m.groups[0] + name + m.groups[1] + "]"
  {
    var g0, g1 := m.groups[0], m.groups[1];
    var t3 := "$2" + "]";
    assert Expand(t3, m) == g1 + "]" by {
      ExpandChar(']', m);
      GroupRef('2', "]", m);
    }
    var t2 := name + t3;
    assert Expand(t2, m) == name + (g1 + "]") by {
      ExpandPlain(name, t3, m);
    }
    var t1 := "$1" + t2;
    assert Expand(t1, m) == g0 + (name + (g1 + "]")) by {
      GroupRef('1', t2, m);
    }
    assert Expand(ShowTemplate(name), m) == "[" + (g0 + (name + (g1 + "]"))) by {
      assert ShowTemplate(name) == "[" + t1;
      ExpandPlain("[", t1, m);
    }
    assert "[" + (g0 + (name + (g1 + "]"))) == ("[" + g0) + (name + (g1 + "]"));
    assert ("[" + g0) + (name + (g1 + "]")) == (("[" + g0) + name) + (g1 + "]");
    assert (("[" + g0) + name) + (g1 + "]") == ((("[" + g0) + name) + g1) + "]";
  }

  /**
   When the template turns every node_env group into the same text as the
   node_env pass does, the replace() gives the rendered pass.
   */
  lemma {:induction false} ReplaceEnvGroupsAgrees(q: Pattern, nodeEnv: Option<string>, before: string)
    requires !Truthy(nodeEnv) || '$' !in nodeEnv.value
    ensures ReplaceEnvGroups(q, EnvTemplate(nodeEnv), before) == Render(ReplaceEnv(q, nodeEnv))
    decreases |q|
  {
    if q != [] {
      var text := RenderSegment(q[0]);
      ReplaceEnvGroupsAgrees(q[1..], nodeEnv, before + text);
      var rest := ReplaceEnv(q[1..], nodeEnv);
      var r := ReplaceEnv(q, nodeEnv);
      assert r[1..] == rest;
      if q[0].EnvGrp? {
        var m := Match(text, [q[0].pre, q[0].post], before, Render(q[1..]));
        if Truthy(nodeEnv) {
          EnvTemplatePlain(nodeEnv.value, m);
        }
      }
    }
  }

  /** The same for the error message's template and `ShowEnv`. */
  lemma {:induction false} ShownGroupsAgree(q: Pattern, name: string, before: string)
    requires '$' !in name
    ensures ReplaceEnvGroups(q, ShowTemplate(name), before) == Render(ShowEnv(q, name))
    decreases |q|
  {
    if q != [] {
      var text := RenderSegment(q[0]);
      ShownGroupsAgree(q[1..], name, before + text);
      assert ShowEnv(q, name)[1..] == ShowEnv(q[1..], name);
      if q[0].EnvGrp? {
        ShowTemplatePlain(name, Match(text, [q[0].pre, q[0].post], before, Render(q[1..])));
      }
    }
  }

  /**
   For a falsy name, or a name without `$`, `composeFilename` as written gives
   exactly the name `Patterns.Compose` gives.
   */
  lemma ComposeAsWrittenAgrees(p: Pattern, local: bool, nodeEnv: Option<string>)
    requires !Truthy(nodeEnv) || '$' !in nodeEnv.value
    ensures ComposeAsWritten(p, local, nodeEnv) == Compose(p, local, nodeEnv)
  {
    ReplaceEnvGroupsAgrees(ReplaceLocal(p, local), nodeEnv, "");
  }

  /** For a name without `$`, the error message's pattern as written is `ShowEnv`'s. */
  lemma ShownAsWrittenAgrees(p: Pattern, name: string)
    requires '$' !in name
    ensures ShownAsWritten(p, name) == Render(ShowEnv(p, name))
  {
    ShownGroupsAgree(p, name, "");
  }

  // ---------------------------------------------------------------------------
  // A name with `$&`

  /** `$&` in the node_env template brings the whole placeholder back. */
  lemma AmpersandEnvTemplate(m: Match)
    requires |m.groups| == 2
    ensures Expand(EnvTemplate(Some("$&")), m) == m.groups[0] + m.text + m.groups[1]
  {
    var g0, g1 := m.groups[0], m.groups[1];
    GroupRef('2', "", m);
    assert Expand("$2", m) == g1 by {
      assert "$2" == ['$', '2'] + "";
    }
    MatchRef("$2", m);
    GroupRef('1', "$&" + "$2", m);
    assert Expand(EnvTemplate(Some("$&")), m) == g0 + (m.text + g1);
  }

  /** With the name `$'` the node_env template becomes prefix, the text after the match, suffix. */
  lemma AfterEnvTemplate(m: Match)
    requires |m.groups| == 2
    ensures Expand(EnvTemplate(Some("$'")), m) == m.groups[0] + m.after + m.groups[1]
  {
    var g0, g1 := m.groups[0], m.groups[1];
    GroupRef('2', "", m);
    assert Expand("$2", m) == g1 by {
      assert "$2" == ['$', '2'] + "";
    }
    AfterRef("$2", m);
    GroupRef('1', "$'" + "$2", m);
    assert Expand(EnvTemplate(Some("$'")), m) == g0 + (m.after + g1);
  }

  /** The same in the error message's template, inside the brackets. */
  lemma AmpersandShowTemplate(m: Match)
    requires |m.groups| == 2
    ensures Expand(ShowTemplate("$&"), m) == "[" + m.groups[0] + m.text + m.groups[1] + "]"
  {
    var g0, g1, x := m.groups[0], m.groups[1], m.text;
    var t3 := "$2" + "]";
    assert Expand(t3, m) == g1 + "]" by {
      ExpandChar(']', m);
      GroupRef('2', "]", m);
    }
    var t2 := "$&" + t3;
    assert Expand(t2, m) == x + (g1 + "]") by {
      MatchRef(t3, m);
    }
    var t1 := "$1" + t2;
    assert Expand(t1, m) == g0 + (x + (g1 + "]")) by {
      GroupRef('1', t2, m);
    }
    assert Expand(ShowTemplate("$&"), m) == "[" + (g0 + (x + (g1 + "]"))) by {
      assert ShowTemplate("$&") == "[" + t1;
      ExpandPlain("[", t1, m);
    }
    assert "[" + (g0 + (x + (g1 + "]"))) == ("[" + g0) + (x + (g1 + "]"));
    assert ("[" + g0) + (x + (g1 + "]")) == (("[" + g0) + x) + (g1 + "]");
    assert (("[" + g0) + x) + (g1 + "]") == ((("[" + g0) + x) + g1) + "]";
  }

  /** The replace() over literal text, one node_env group and a segment that is not one. */
  lemma ThreeSegments(a: string, pre: string, post: string, x: Segment, template: string)
    requires !x.EnvGrp?
    ensures ReplaceEnvGroups([Lit(a), EnvGrp(pre, post), x], template, "") ==
      a + (Expand(template, Match(RenderSegment(EnvGrp(pre, post)), [pre, post], a, RenderSegment(x)))
        + RenderSegment(x))
  {
    var g := EnvGrp(pre, post);
    var q := [Lit(a), g, x];
    assert q[1..] == [g, x] && [g, x][1..] == [x] && [x][1..] == [];
    assert Render([x]) == RenderSegment(x) by {
      assert Render([x]) == RenderSegment(x) + Render([]);
    }
    var b := "" + a;
    var y := ReplaceEnvGroups([x], template, b + RenderSegment(g));
    assert y == RenderSegment(x) by {
      assert y == RenderSegment(x) + ReplaceEnvGroups([], template, b + RenderSegment(g) + RenderSegment(x));
    }
    assert b == a;
  }

  /**
   With the environment name `$&`, the default pattern composes to
   `.env.[.node_env]` as written, where the verbatim insertion
   `Patterns.Compose` states gives `.env.$&`.
   */
  lemma AmpersandNameExpands(e: Option<string>)
    requires e == Some("$&")
    ensures ComposeAsWritten(DefaultPattern, false, e) == ".env" + ("." + "[.node_env]")
    ensures Compose(DefaultPattern, false, e) == ".env" + ("." + "$&")
    ensures ComposeAsWritten(DefaultPattern, false, e) != Compose(DefaultPattern, false, e)
  {
    assert ComposeAsWritten(DefaultPattern, false, e) == ".env" + ("." + "[.node_env]") by {
      AmpersandComposedAsWritten(e);
    }
    assert Compose(DefaultPattern, false, e) == ".env" + ("." + "$&") by {
      ComposeDefault(false, e);
      AppendEmpty("." + "$&");
    }
    assert |".env" + ("." + "[.node_env]")| != |".env" + ("." + "$&")|;
  }

  lemma AmpersandComposedAsWritten(e: Option<string>)
    requires e == Some("$&")
    ensures ComposeAsWritten(DefaultPattern, false, e) == ".env" + ("." + "[.node_env]")
  {
    var g := EnvGrp(".", "");
    assert ReplaceLocal(DefaultPattern, false) == [Lit(".env"), g, Lit("")];
    DefaultEnvGroupText();
    ThreeSegments(".env", ".", "", Lit(""), EnvTemplate(e));
    AmpersandEnvTemplate(Match("[.node_env]", [".", ""], ".env", ""));
    ExpandedText();
  }

  /**
   With the environment name `$'` and the pattern `[node_env]`, the name is
   empty as written (the text after the only match is empty), so the node_env
   slot of the cascade is dropped; inserting the name gives `$'`.
   */
  lemma AfterNameEmpties(e: Option<string>)
    requires e == Some("$'")
    ensures ComposeAsWritten([EnvGrp("", "")], false, e) == ""
    ensures Compose([EnvGrp("", "")], false, e) == "$'"
    ensures ComposeAsWritten([EnvGrp("", "")], false, e) != Compose([EnvGrp("", "")], false, e)
  {
    var q := [EnvGrp("", "")];
    assert ReplaceLocal(q, false) == q;
    assert ComposeAsWritten(q, false, e) == "" by {
      var m := Match(RenderSegment(q[0]), ["", ""], "", Render(q[1..]));
      assert Render(q[1..]) == "";
      AfterEnvTemplate(m);
      assert Expand(EnvTemplate(e), m) == "";
      assert ReplaceEnvGroups(q[1..], EnvTemplate(e), "" + RenderSegment(q[0])) == "";
    }
    assert Compose(q, false, e) == "$'" by {
      assert ReplaceEnv(q, e) == [Lit("" + "$'" + "")];
      assert Render([Lit("$'")]) == "$'";
    }
  }

  /**
   With the environment name `$&`, the "no files" error shows the default
   pattern as `.env[.[.node_env]][.local]` as written, where `ShowEnv` gives
   `.env[.$&][.local]`.
   */
  lemma AmpersandNameShown(name: string)
    requires name == "$&"
    ensures ShownAsWritten(DefaultPattern, name) == ".env" + ("[." + "[.node_env]" + "]" + "[.local]")
    ensures Render(ShowEnv(DefaultPattern, name)) == ".env" + "[." + name + "]" + "[.local]"
    ensures ShownAsWritten(DefaultPattern, name) != Render(ShowEnv(DefaultPattern, name))
  {
    assert ShownAsWritten(DefaultPattern, name) == ".env" + ("[." + "[.node_env]" + "]" + "[.local]") by {
      AmpersandShownAsWritten(name);
    }
    assert Render(ShowEnv(DefaultPattern, name)) == ".env" + "[." + name + "]" + "[.local]" by {
      ShowEnvDefault(name);
    }
    assert |".env" + ("[." + "[.node_env]" + "]" + "[.local]")| != |".env" + "[." + name + "]" + "[.local]"|;
  }

  lemma AmpersandShownAsWritten(name: string)
    requires name == "$&"
    ensures ShownAsWritten(DefaultPattern, name) == ".env" + ("[." + "[.node_env]" + "]" + "[.local]")
  {
    var l := LocalGrp(".", "");
    DefaultEnvGroupText();
    assert RenderSegment(l) == "[.local]";
    ThreeSegments(".env", ".", "", l, ShowTemplate(name));
    AmpersandShowTemplate(Match("[.node_env]", [".", ""], ".env", "[.local]"));
    ShownText();
  }

  lemma AppendEmpty(x: string)
    ensures x + ("" + "") == x
  {
  }

  lemma DefaultEnvGroupText()
    ensures RenderSegment(EnvGrp(".", "")) == "[.node_env]"
  {
  }

  lemma ExpandedText()
    ensures "." + "[.node_env]" + "" + "" == "." + "[.node_env]"
  {
  }

  lemma ShownText()
    ensures ("[" + "." + "[.node_env]" + "" + "]") + "[.local]" == "[." + "[.node_env]" + "]" + "[.local]"
  {
  }
}

=== FILE: wrappers.dfy ===
/** Option and Result datatypes shared by the whole model. */
module Wrappers {

  /** An optional value: JavaScript's `undefined` is `None`. */
  datatype Option<+T> = None | Some(value: T) {

    /** The value, or `default` when there is none (a destructuring default). */
    function GetOr(default: T): T {
      match this
      case Some(v) => v
      case None => default
    }
  }

  /** The outcome of an operation that can fail with an error of type `E`. */
  datatype Result<+R, +E> = Success(value: R) | Failure(error: E)
}
